=== FILE: README.md ===
# Telecom Plus front-end — a Dafny model

This project models the client side of the Telecom Plus contract and
service manager, a Next.js application. The model covers:

- the two Zustand stores (contracts and services) and their cache protocol;
- the service objects that read the backend's envelopes;
- the Axios interceptors that attach or purge the JWT cookie;
- the authentication context (startup check, login, register, logout);
- the edge route guard;
- the submit handlers of the forms that create and edit contracts,
  create services and register users;
- the services selector;
- the contract list, statistics cards and dashboard views.

Backend payloads are JSON values (`JsValue.Json`) read with JavaScript's
rules, not typed records:

- `||` keeps the first truthy operand, and `[]` and `{}` are truthy.
- `?.` yields `undefined`, while a plain field read on `null` or
  `undefined` throws a `TypeError`.
- `String(v)` renders values as JavaScript does.

Each asynchronous call becomes a `Completion`: it either returns a value or
throws an error that carries a message and, for HTTP failures, the response.
Browser side effects are returned as data, in the order the code performs them:

- cookie writes and deletions, each with the expiry it sets;
- navigations to `/login`.

What the code does and does not promise:

- The contract store keeps whatever `getContratos` resolved with: the record
  `{ contratos, pagination }`, not the array. Once a fetch succeeds:
  - every later create, update or delete throws a `TypeError` and leaves
    the cache alone;
  - every view that guards with `Array.isArray` lists nothing.
  `StoreCore.FetchedCacheIsSticky`, `ContractList.FetchedCacheListsNothing`
  and `Dashboard.FetchedDashboardIsEmpty` state this.
- The API interceptor and the startup check disagree on two points:
  - a token whose `exp` is exactly now is sent by the interceptor, but the
    startup check treats it as expired;
  - a token without `exp` is sent by the interceptor, but the startup
    check treats it as expired.
  `AuthSession.ExpiryBoundary` states this.
- The contract edit page on a route without an id never leaves its loading
  state (`ContractEditForm.Load`).
- The service form measures name and description before trimming them.
  A padded one-letter name passes and is sent as one letter
  (`ServiceForm.PaddedNameAccepted`).
- The services selector's "clear selection" toggles every selected id.
  It empties a selection without duplicates, but leaves one copy of an id
  selected twice (`Selection.ClearWithDuplicate`).

The model takes these as parameters:

- date parsing (`new Date(text)`, `None` for an invalid date) and the clock,
  in milliseconds;
- `parseFloat`;
- `jwtDecode`;
- `JSON.stringify` of a user;
- `toISOString`;
- the percent-encoding of query values;
- the answers of `confirm` dialogs.

## Model

| member | source | states |
|---|---|---|
| StoreCore.Initial | src/store/contratoStore.ts:20-23 | a store starts with an empty array, not loading, with no error |
| StoreCore.Begin | src/store/contratoStore.ts:26 | every action starts loading and clears the error without touching the cached list |
| StoreCore.Fail | src/store/contratoStore.ts:44-49 | a failed call keeps the cache, stops loading, records the error's message or the action's fallback, and rethrows the same error |
| StoreCore.ReplaceWhere | src/store/contratoStore.ts:75-77 | the updated list has the same length; each position holds the new record where the id matched and the old record elsewhere |
| StoreCore.RemoveWhere | src/store/contratoStore.ts:94 | what is kept is exactly the entries with another id, in their original order, and what is kept plus what is dropped (every entry with the id) is the cached multiset, so each kept entry appears as often as it was cached |
| Seqs.FilterPartition | src/store/contratoStore.ts:94 | filtering by a predicate and by its complement splits the list without losing or adding any element |
| Seqs.FilterMultiset | src/store/contratoStore.ts:94 | `filter` keeps every element passing the predicate as many times as it occurs, and no other element |
| StoreCore.Fetch | src/store/contratoStore.ts:25-36 | success stores the whole resolved record; failure keeps the cache and records message or fallback; loading always ends |
| StoreCore.Read | src/store/contratoStore.ts:38-51 | a read-only action leaves the cache unchanged and passes the call's outcome through, recording the error on failure |
| StoreCore.Create | src/store/contratoStore.ts:53-68 | on an array cache a created record is appended at the end; on a fetched record the spread throws a TypeError; a failed call is rethrown with the cache kept |
| StoreCore.Update | src/store/contratoStore.ts:70-87 | on an array cache matching entries are replaced; on a fetched record the map throws a TypeError; failures keep the cache |
| StoreCore.Delete | src/store/contratoStore.ts:89-104 | on an array cache entries with the id are dropped; on a fetched record the filter throws a TypeError; failures keep the cache |
| StoreCore.ClearError | src/store/contratoStore.ts:136-138 | clearing only resets the error |
| StoreCore.AppendDoesNotDedupe | src/store/contratoStore.ts:57-60 | creating a record already cached keeps both copies |
| StoreCore.ReplaceWithoutMatch | src/store/contratoStore.ts:75-77 | updating an id that is not cached leaves the list as it was |
| StoreCore.ReplaceIdempotent | src/store/contratoStore.ts:75-77 | applying the same update twice equals applying it once |
| StoreCore.ReplaceTouchesOnlyMatches | src/store/contratoStore.ts:75-77 | an entry with another id keeps its position and value; an entry with the id becomes the new record |
| StoreCore.RemoveIdempotent | src/store/contratoStore.ts:94 | removing an id twice equals removing it once |
| StoreCore.RemoveWithoutMatch | src/store/contratoStore.ts:94 | removing an id that is not cached leaves the list as it was |
| StoreCore.RemoveAfterAppend | src/store/contratoStore.ts:57-94 | deleting a just-created record's id removes it and everything else with that id |
| StoreCore.RemoveAfterReplace | src/store/contratoStore.ts:74-96 | updating then deleting the same id leaves what deleting alone leaves |
| StoreCore.DeleteTwice | src/store/contratoStore.ts:89-104 | a second successful delete of the same id changes nothing |
| StoreCore.FetchedCacheIsSticky | src/store/contratoStore.ts:28-96 | once a fetch succeeded, create, update and delete always throw and never change the cache, and lists show nothing |
| ContractStore.FetchContratos | src/store/contratoStore.ts:25-36 | success caches the resolved record, which shows no entries; failure keeps the cache and shows the message, or "Error al cargar contratos" if the message is empty |
| ContractStore.GetContratoById | src/store/contratoStore.ts:38-51 | resolves or rethrows the call unchanged; the error text is the message or "Error al obtener contrato" |
| ContractStore.CreateContrato | src/store/contratoStore.ts:53-68 | on an array cache the new contract is appended after the unchanged old ones; a failure is rethrown with the cache kept and the message or fallback shown |
| ContractStore.UpdateContrato | src/store/contratoStore.ts:70-87 | same length; every contract whose `_id` matches becomes the updated one, the rest are unchanged; failures rethrown |
| ContractStore.DeleteContrato | src/store/contratoStore.ts:89-104 | no remaining contract has the id; the cache becomes `RemoveWhere` of the old entries, so every contract with another id remains as many times as it was cached, in cache order; failures rethrown |
| ContractStore.GetContratosByEstado | src/store/contratoStore.ts:106-119 | the cache is untouched and the listing passed through; failures recorded with their fallback |
| ContractStore.GetContratosProximosAVencer | src/store/contratoStore.ts:121-134 | the service has no such method, so the action always throws a TypeError and shows its text |
| ContractStore.ClearContratoError | src/store/contratoStore.ts:136-138 | only the error is reset |
| ContractStore.UpdateThenLookUp | src/store/contratoStore.ts:70-87 | after an update, each position holds the patched contract if its id matched, else the old one |
| ContractStore.DeleteContratoTwice | src/store/contratoStore.ts:89-104 | deleting the same contract twice equals deleting it once |
| CatalogStore.FetchServicios | src/store/serviceStore.ts:24-35 | success caches the resolved record, which shows no entries; failure keeps the cache and shows the message or "Error al cargar servicios" |
| CatalogStore.GetServicioById | src/store/serviceStore.ts:37-50 | resolves or rethrows unchanged; error text is the message or its fallback |
| CatalogStore.CreateServicio | src/store/serviceStore.ts:52-67 | on an array cache the new service is appended; failures rethrown with the cache kept |
| CatalogStore.UpdateServicio | src/store/serviceStore.ts:69-86 | services with the id are replaced position by position, the others unchanged; failures rethrown |
| CatalogStore.DeleteServicio | src/store/serviceStore.ts:88-103 | no remaining service has the id; the cache becomes `RemoveWhere` of the old entries, so every other service remains as many times as it was cached, in cache order; failures rethrown |
| CatalogStore.GetServiciosByTipo | src/store/serviceStore.ts:105-118 | cache untouched, listing passed through, failures recorded |
| CatalogStore.ClearServicioError | src/store/serviceStore.ts:120-122 | only the error is reset |
| CatalogStore.DeleteServicioTwice | src/store/serviceStore.ts:88-103 | deleting the same service twice equals deleting it once |
| ContractService.ListResult | src/services/contratoSevice.ts:24-37 | items are `data.contracts`, else `data`, else `[]`; pagination is `data.pagination` or the default block with zero items; a nullish body throws a TypeError; request errors are rethrown |
| ContractService.RecordResult | src/services/contratoSevice.ts:41-45 | by-id, create and update resolve with the body's `data` and throw a TypeError exactly when the body is nullish |
| ContractService.ByIdUrl | src/services/contratoSevice.ts:42 | the by-id path asks the backend to populate the services |
| ContractService.DeleteResult | src/services/contratoSevice.ts:65-67 | delete resolves exactly when the request did, rethrowing its error otherwise |
| ContractService.ByEstadoParams | src/services/contratoSevice.ts:69-74 | the by-state query is the list query with the state as filter and the page settings kept |
| ContractService.EnvelopeRoundTrip | src/services/contratoSevice.ts:26-37 | the documented envelope `{success, data: {contracts, pagination}}` reads back exactly its contracts and pagination, even with no contracts |
| ContractService.MalformedBodies | src/services/contratoSevice.ts:28-36 | bodies without `contracts` fall back to `data` itself or `[]`, always with the default pagination |
| ContractService.RecordIgnoresSuccess | src/services/contratoSevice.ts:44 | the `success` flag is never consulted when reading a record |
| ContractService.ByEstadoUrl | src/services/contratoSevice.ts:18-23 | a non-empty state becomes the first query pair and the URL starts `/contracts?e` |
| Query.QueryPairs | src/services/contratoSevice.ts:18-21 | at most three query pairs are appended |
| Query.QueryPairsSpec | src/services/contratoSevice.ts:18-21 | a key is present iff its value is truthy; keys keep the order filter, page, limit; the first pair's value is stated |
| Query.QueryPairValues | src/services/contratoSevice.ts:18-21 | every pair carries its own parameter's value: the filter text, or the page or limit as decimal text |
| Query.QuestionMarkIffParams | src/services/contratoSevice.ts:23 | a `?` follows the path exactly when some parameter is present, and the bare path is used otherwise |
| Query.DefaultPagination | src/services/contratoSevice.ts:29-36 | the default pagination block is an object carrying the given item total |
| CatalogService.ListResult | src/services/servicioService.ts:22-37 | items are the first truthy of `data.services`, `services`, `data`, the body, `[]`, so always truthy; default pagination counts the items' length |
| CatalogService.ByIdResult | src/services/servicioService.ts:40-44 | by-id and update resolve with `data` when truthy, else the whole body; a nullish body throws |
| CatalogService.CreatePayload | src/services/servicioService.ts:49-54 | name and description are sent trimmed and never longer; price and type are sent as given |
| CatalogService.CreateError | src/services/servicioService.ts:64-78 | the rethrown error has no response attached, and a 409 always becomes the fixed conflict message |
| CatalogService.CreateResult | src/services/servicioService.ts:46-79 | creation (through `CreateAttempt`) resolves iff the post succeeded with a non-nullish body whose `success` is truthy, and then with the body's `data`; a nullish body throws the TypeError; every error escaping creation is a plain error without a response |
| CatalogService.UpdatePayload | src/services/servicioService.ts:82-87 | present texts are trimmed, absent ones stay absent, and a price is sent iff given and non-zero |
| CatalogService.ByTipoParams | src/services/servicioService.ts:96-101 | the by-type query is the list query with the type as filter |
| CatalogService.ConflictIgnoresBody | src/services/servicioService.ts:68-70 | a 409 gives the conflict message whatever the body says |
| CatalogService.OtherFailureMessages | src/services/servicioService.ts:72-77 | other failures show the body's message, else its error, else the error's own message, else "Error desconocido del servidor" |
| CatalogService.UnsuccessfulBody | src/services/servicioService.ts:59-63 | a 2xx body with a falsy `success` becomes an error with its message or "Error del servidor" |
| CatalogService.ZeroPriceDropped | src/services/servicioService.ts:85 | an update to price 0 sends no price |
| CatalogService.DefaultTotalsDiffer | src/services/servicioService.ts:26-33 | for the same body the service list reports the item count as total while the contract list reports 0 |
| JsText.TrimIdempotent | src/services/servicioService.ts:50-51 | trimming a second time changes nothing |
| Browser.GetCookie | src/services/api.ts:28-34 | a value read from the jar is non-empty and contains no `;` |
| Browser.SetCookie | src/context/AuthContext.tsx:66-71 | the write carries name and value, path `/`, and expires exactly `days` days of milliseconds after now |
| Browser.DeleteCookie | src/services/api.ts:37-40 | deletion writes an empty value expiring at the epoch on path `/` |
| Browser.ReadOnly | src/services/api.ts:30-32 | a jar holding only `name=value` reads back the value, or nothing for an empty value |
| Browser.ReadAfterOther | src/services/api.ts:30-32 | a cookie after another one is read back exactly |
| Browser.ReadAbsent | src/services/api.ts:30-33 | a single cookie of another name reads as absent |
| Browser.ReadDuplicate | src/services/api.ts:31-33 | a name that appears twice reads as absent, since the split yields three parts |
| ApiClient.PlanRequest | src/services/api.ts:43-85 | a request with an Authorization header has no side effects; without a token cookie nothing happens |
| ApiClient.OnResponseError | src/services/api.ts:93-111 | the error is always rethrown unchanged, and only a 401 has effects |
| ApiClient.PlanCases | src/services/api.ts:46-77 | the Bearer header is set iff the cookie decodes and is not expired; otherwise, when a cookie exists, both cookies are deleted and the browser sent to `/login` |
| ApiClient.ExpiringNowIsSent | src/services/api.ts:59 | a token whose `exp` equals the current second is still sent |
| ApiClient.UnauthorizedNavigation | src/services/api.ts:97-107 | a 401 deletes both cookies and navigates to `/login` unless already on a `/login` path |
| AuthSession.MapUser | src/context/AuthContext.tsx:106-112 | `id` is `_id` when truthy, else `id`; other fields are copied; a nullish record throws |
| AuthSession.CheckAuth | src/context/AuthContext.tsx:81-143 | the startup check always ends loading and never throws; it either does nothing to the cookies or deletes both, and in the latter case leaves the state as it was |
| AuthSession.SignInRecord | src/context/AuthContext.tsx:155-164 | a successful sign-in body yields its token and the mapped user; request errors pass through |
| AuthSession.SessionWrites | src/context/AuthContext.tsx:166-168 | token then user cookie, token as text and user stringified, both on `/` for seven days |
| AuthSession.SignIn | src/context/AuthContext.tsx:149-178 | failure leaves the state and cookies alone and throws a plain error with the body's message or the fallback; success holds the new user and token and writes both cookies |
| AuthSession.Login | src/context/AuthContext.tsx:149-178 | is `SignIn` with "Error al iniciar sesión": any failure, a 401 included, throws the body's `message` or that fallback with state and cookies untouched; success writes the `token` then the `user` cookie for seven days and signs the user in |
| AuthSession.Register | src/context/AuthContext.tsx:181-220 | like login with "Error al registrarse", except that a truthy non-array `errors` makes the logging loop throw a TypeError |
| AuthSession.Logout | src/context/AuthContext.tsx:223-242 | the session always ends unauthenticated with both cookies deleted, whatever the backend answered |
| AuthSession.CheckAuthCases | src/context/AuthContext.tsx:87-142 | the user is restored iff both cookies exist, the token decodes, is fresh and the profile validates it; the cookies are purged iff both existed and any later step failed |
| AuthSession.ExpiryBoundary | src/context/AuthContext.tsx:96 | no token is both expired for the interceptor and fresh for the startup check; with an `exp`, both tests fail exactly at the boundary second; without one, both fail |
| AuthSession.AcceptedSessionIsSent | src/context/AuthContext.tsx:90-115 | a session the startup check accepts is one the interceptor sends with the same token |
| AuthSession.SignInAuthenticates | src/context/AuthContext.tsx:166-172 | a sign-in with a non-empty token leaves the context authenticated and writes that token first |
| AuthSession.AuthenticatedNeedsBoth | src/context/AuthContext.tsx:247 | `IsAuthenticated` holds iff there is a user and a non-empty token |
| AuthSession.SignInMessages | src/context/AuthContext.tsx:174-177 | without a response the fallback is shown; with a body message that message is shown |
| AuthSession.LogoutIgnoresBackend | src/context/AuthContext.tsx:227-241 | logout's result does not depend on the backend's answer |
| AuthSession.RegisterErrorLoop | src/context/AuthContext.tsx:208-219 | for a body whose `errors` is a string, login shows the message but register throws a TypeError |
| RouteGuard.Middleware | src/middleware.ts:10-52 | bypassed paths pass; a redirect goes to `/login` only without a token and to `/dashboard` only with one |
| RouteGuard.RouteListsDisjoint | src/middleware.ts:5-8 | no path is both protected and public |
| RouteGuard.Decisions | src/middleware.ts:25-51 | protected paths need a token, public paths bounce signed-in users to the dashboard, `/` redirects by token, everything else passes |
| RouteGuard.PrefixMatching | src/middleware.ts:26-33 | matching is by prefix: `/loginx` counts as public and `/servicesfoo` as protected |
| RouteGuard.EmptyTokenIsAbsent | src/middleware.ts:12 | an empty token cookie is treated like no cookie |
| Selection.Toggle | src/app/contratos/nuevo/page.tsx:51-58 | toggling flips the id's membership, keeps every other id's membership, and appends a new id at the end |
| Selection.ToggleKeepsDistinct | src/app/contratos/nuevo/page.tsx:51-58 | toggling a list without duplicates keeps it without duplicates |
| Selection.ToggleTwice | src/app/contratos/nuevo/page.tsx:51-58 | toggling an absent id twice restores the list; toggling a present id twice keeps the same members, with the id moved to the end |
| Selection.ClearSelection | src/components/ServiciosSelector.tsx:84-94 | "clear selection" empties a selection without duplicates |
| Selection.ClearEmpties | src/components/ServiciosSelector.tsx:86-89 | toggling each pending id in turn empties a list holding exactly those distinct ids |
| Selection.ClearDistinct | src/components/ServiciosSelector.tsx:86-89 | clearing a duplicate-free selection leaves it empty |
| Selection.ClearWithDuplicate | src/components/ServiciosSelector.tsx:86-89 | an id selected twice survives clearing once |
| Selection.Find | src/components/ServiciosSelector.tsx:162 | a service with the id that no earlier catalog service shares, or none when no service has it |
| Selection.Summary | src/components/ServiciosSelector.tsx:161-169 | the summary rows are catalog services for selected ids, at most one per selected id |
| Selection.SummaryListsKnown | src/components/ServiciosSelector.tsx:161-169 | the rows' ids are, in selection order, exactly the selected ids the catalog holds |
| Selection.SummaryShowsFirstMatch | src/components/ServiciosSelector.tsx:161-169 | each row is the first catalog service with its id |
| Selection.TotalIsSumOfRows | src/components/ServiciosSelector.tsx:157-178 | the monthly total (`Total`, the reduce) equals the sum of the prices of the summary rows |
| Selection.Render | src/components/ServiciosSelector.tsx:25-178 | loading, then a non-empty error, then an empty catalog take precedence; otherwise one card per service marked iff selected, the count, the clear button iff any, and the rows with their total iff any id is selected |
| ContractForm.EntryTexts | src/app/contratos/nuevo/page.tsx:133-136 | every validation entry is rendered, in list order, as its own entry text; the rendering fails iff some entry is nullish |
| ContractForm.EntryWording | src/app/contratos/nuevo/page.tsx:133-136 | an entry reads as its `path` else "Campo", then its `msg` else its `message` else "Error desconocido"; only a nullish entry fails |
| ContractForm.FormatError | src/app/contratos/nuevo/page.tsx:128-141 | formatting the failure throws iff the body's `errors` is an array holding a nullish entry |
| ContractForm.HandleSubmit | src/app/contratos/nuevo/page.tsx:60-147 | a payload is sent iff every check passes and both dates convert; a failed check shows its message; navigation to `/dashboard` happens iff the creation succeeded; a failed creation shows `FormatError`'s message (nothing when the formatting throws); a draft passing every check with a date that does not convert shows "Invalid time value" |
| ContractForm.ToggleService | src/app/contratos/nuevo/page.tsx:51-58 | toggling a service changes only the selected ids |
| ContractForm.CheckOrder | src/app/contratos/nuevo/page.tsx:67-100 | each check of `FirstFailure` fires exactly when all earlier ones passed and it fails |
| ContractForm.DisabledIffEarlyFailure | src/app/contratos/nuevo/page.tsx:250 | the submit button (`Disabled`) is disabled exactly when the first or second check would fail |
| ContractForm.PassedChecks | src/app/contratos/nuevo/page.tsx:67-111 | a draft that passed every check has a number of 3 to 20 characters of `[A-Z0-9-]`, at least one service and a truthy user id |
| ContractForm.AcceptedNumberUnchanged | src/app/contratos/nuevo/page.tsx:89-104 | a number that matches `[A-Z0-9-]+` is unchanged by trimming and upper-casing |
| ContractForm.BuildsAsTyped | src/app/contratos/nuevo/page.tsx:102-110 | with two valid dates, a number in the pattern goes into the payload unchanged, next to the converted dates, the state, the services and the user id |
| ContractForm.SentPayload | src/app/contratos/nuevo/page.tsx:102-119 | a draft passing every check with two valid dates is sent with the number as typed, its state and services, the converted dates and the user's id |
| ContractForm.InvalidEndReachesPayload | src/app/contratos/nuevo/page.tsx:75-106 | a valid start date with an unparseable end date passes both date checks and fails only as "Invalid time value" when converted |
| ContractForm.InvalidDatesReachPayload | src/app/contratos/nuevo/page.tsx:75-106 | an unparseable start date passes both date checks and fails only as "Invalid time value" when converted |
| ContractForm.ErrorWordingAnyList | src/app/contratos/nuevo/page.tsx:130-138 | any validation list without nullish entries is shown as "Errores de validación: " and every entry's text, in order, joined with ", " |
| ContractForm.ErrorWordingList | src/app/contratos/nuevo/page.tsx:130-138 | a one-entry list with a `path` and a `msg` is shown as "Errores de validación: path: msg" |
| ContractForm.ErrorWordingChain | src/app/contratos/nuevo/page.tsx:128-141 | for any error without an array `errors` in the body: a truthy body `message` is shown; otherwise the error's own non-empty message; otherwise "Error al crear contrato" |
| ContractForm.ErrorWordingFallbacks | src/app/contratos/nuevo/page.tsx:128-141 | two instances of the chain: a body `{message: m}` shows `m`; an error with no response shows its own message or "Error al crear contrato" |
| ContractForm.ErrorWordingNullEntry | src/app/contratos/nuevo/page.tsx:133-136 | a null entry makes the error formatting itself throw, so no message is set |
| ContractEditForm.DatePart | src/pages/ContratoEditar.tsx:37-38 | the date part is a prefix without `T`, and a text without `T` is kept whole |
| ContractEditForm.FromContract | src/pages/ContratoEditar.tsx:35-41 | the form takes number, state and services as they are and the date part of both dates |
| ContractEditForm.Load | src/pages/ContratoEditar.tsx:27-50 | without an id the page stays loading forever; otherwise loading ends with the form filled or the message or "Error al cargar datos" |
| ContractEditForm.HandleSubmit | src/pages/ContratoEditar.tsx:69-84 | nothing happens without an id; otherwise the form is sent as is, and the page navigates to the contract iff the update succeeded, else shows the message or fallback |
| ContractEditForm.ToggleService | src/pages/ContratoEditar.tsx:60-67 | toggling a service changes only the selected ids |
| ContractEditForm.IsoTimestampLoadsDate | src/pages/ContratoEditar.tsx:37 | an ISO timestamp loads as its date |
| ContractEditForm.DateOnlyRoundTrip | src/pages/ContratoEditar.tsx:35-77 | loading a contract with plain dates and saving it unchanged sends back the same dates, number and services |
| ContractEditForm.EmptyFormIsSent | src/pages/ContratoEditar.tsx:69-84 | the handler itself sends an empty form, though the button is disabled for it |
| ContractEditForm.DisabledDraftIsSent | src/pages/ContratoEditar.tsx:210 | every draft the button (`Disabled`) disables is still sent as it is when submitted with an id |
| ServiceForm.HandleSubmit | src/app/services/nuevo/page.tsx:31-73 | a request is sent iff the checks pass, with trimmed texts and a non-negative price of an allowed type; navigation to `/services` iff creation succeeded |
| ServiceForm.ServiceKeepsPageRequest | src/app/services/nuevo/page.tsx:55-60 | the service's own trimming does not change what the page sends |
| ServiceForm.PaddedNameAccepted | src/app/services/nuevo/page.tsx:38-57 | a one-letter name padded with spaces passes the length check and is sent as one letter |
| ServiceForm.CheckOrder | src/app/services/nuevo/page.tsx:38-53 | each check of `FirstFailure` fires exactly when all earlier ones passed and it fails |
| ServiceForm.DisabledRejected | src/app/services/nuevo/page.tsx:156 | the button (`Disabled`) is off only for drafts the handler refuses anyway |
| RegisterForm.HandleSubmit | src/app/register/page.tsx:51-90 | `register` is called iff every check passes; a failed check shows its message; navigation to `/dashboard` iff registration succeeded |
| RegisterForm.IsEmailSound | src/app/register/page.tsx:73-74 | every address the direct test accepts matches the email pattern |
| RegisterForm.IsEmailComplete | src/app/register/page.tsx:73-74 | every address matching the pattern passes the direct test |
| RegisterForm.IsEmailMatchesPattern | src/app/register/page.tsx:73-74 | the direct test (`IsEmail`) accepts exactly the addresses the regular expression matches |
| RegisterForm.DisabledPredicates | src/app/register/page.tsx:179 | the app page's button is disabled iff the older page's is or a request is running |
| RegisterForm.EmailExamples | src/pages/Register.tsx:60-61 | `a@b.co` matches, while `a@b@c.d` and `@b.c` do not |
| RegisterForm.CheckOrder | src/app/register/page.tsx:55-77 | each check of `FirstFailure` fires exactly when all earlier ones passed and it fails, the e-mail check being the regular expression |
| RegisterForm.DisabledRejected | src/app/register/page.tsx:179 | the button is off for an empty field only when the handler would refuse the draft anyway |
| ContractList.Shown | src/app/contratos/page.tsx:32-39 | listed contracts are exactly the cached ones whose number contains the search text ignoring case and whose state passes the filter, in cache order and as many times as cached |
| ContractList.Page | src/app/contratos/page.tsx:66 | the page shows the spinner iff the store is loading, else the filtered list |
| ContractList.HandleDelete | src/app/contratos/page.tsx:41-51 | nothing happens unless confirmed; an alert appears iff the delete failed, with the cache kept; after a successful delete and a failed reload no contract with the id is listed |
| ContractList.NoFilterShowsAll | src/app/contratos/page.tsx:35-39 | an empty search with "todos" lists every cached contract |
| ContractList.FetchedCacheListsNothing | src/app/contratos/page.tsx:32 | a cache holding the fetched record lists nothing |
| ContractList.EstadoColors | src/app/contratos/page.tsx:53-64 | under `EstadoColor`, active contracts get "default" and all others "secondary"; the "outline" branch is never reached |
| ContractList.EmptyTitleWording | src/app/contratos/page.tsx:193 | the empty list reads "No hay contratos" iff neither a search text nor a state narrows it, else "No se encontraron contratos" |
| ContractList.SearchIgnoresCase | src/app/contratos/page.tsx:36 | upper- and lower-case search texts match the same contracts |
| ContractList.DeleteThenReloadListsNothing | src/app/contratos/page.tsx:41-51 | a successful delete followed by a successful reload leaves a page listing nothing |
| Stats.CeilDiv | src/components/StatsCards.tsx:21 | the rounded-up quotient is the least whole number of days covering the span |
| Stats.Activos | src/components/StatsCards.tsx:16 | the active count never exceeds the number of contracts |
| Stats.ProximosVencer | src/components/StatsCards.tsx:18-23 | the expiring count never exceeds the number of contracts |
| Stats.EndsSoonWindow | src/components/StatsCards.tsx:19-23 | a contract counts as expiring iff its end lies after now and within thirty days of milliseconds |
| Stats.TotalCountsContracts | src/components/StatsCards.tsx:25-27 | the service total (`TotalServicios`) is at least the number of contracts with services, and zero iff none has one |
| Dashboard.MountFetches | src/app/dashboard/page.tsx:28-38 | fetches are issued on mount iff the user is authenticated |
| Dashboard.Render | src/app/dashboard/page.tsx:40-55 | the spinner shows iff either store loads; otherwise totals, active count, service count and the first three contracts of the cached arrays |
| Dashboard.FetchedDashboardIsEmpty | src/app/dashboard/page.tsx:40-43 | after a successful contract fetch the dashboard counts and lists no contracts |
| Dashboard.GreetingFallback | src/app/dashboard/page.tsx:66 | without a user the greeting names "Usuario" |

## Left out

- Server-side rendering branches (`typeof window === 'undefined'`), console logging, JSX markup and styling: they have no effect on the state modelled.
- The contract and service detail pages, the services list page, the login pages, the navigation bar, `useServicios` and the profile service: they only display store state or repeat the flows above.
- `getContractStats`: it only reads an endpoint, with nothing to state beyond passing the record through.
- The composition of interceptor effects with each call: the auth and store operations take the call's outcome as a parameter.
- Concurrency and React's batching of state updates: each handler is modelled as one sequential step.
- `fetchServicios` in the edit page's loader: it absorbs its own errors, so the loader's result depends only on `getContratoById`.
- Case mapping outside ASCII letters, and Unicode normalisation: only ASCII letters change case.
- UTF-16 lengths: a Dafny string is a sequence of Unicode scalar values, while JavaScript's `.length` counts UTF-16 code units. A character outside the Basic Multilingual Plane (an emoji, say) counts 1 here and 2 in the pages, so the length checks (names 2 to 100 and 2 to 50, descriptions 10 to 500, passwords of 6) differ on such text. The contract number's length check cannot differ: the `[A-Z0-9-]` pattern, checked first, already refuses such characters.
- Typed decoding of backend records: entities returned by calls are given as typed values, and only envelopes are read as JSON.
- The browser's cookie jar semantics: writes are returned as effects, and reads take the `document.cookie` text.
- Browser.GetCookie: its contract only bounds the value read; what each jar shape yields is stated by the `Read*` lemmas.
- CatalogService.CreateError: beyond the 409 case, its message is stated through `OtherFailureMessages` for concrete bodies rather than in general.
- Selection.ClearSelection: its contract is exact only for a selection without duplicates; `ClearWithDuplicate` shows the other case.
- ApiClient.PlanRequest: its contract gives only the two simple cases; `PlanCases` states the full case split.
- AuthSession.CheckAuth: its contract gives only the shape of the outcome; `CheckAuthCases` states when the user is restored.

=== FILE: api_client.dfy ===
/** The HTTP client's interceptors (src/services/api.ts): before each
    request, whether to attach the session token and whether to purge the
    session; after a failed response, whether to purge and go to the login
    page. */
module ApiClient {
  import opened Prelude
  import opened JsValue
  import opened Browser
  import JsText

  /** The claims `jwtDecode` returns; `exp` and `iat` may be missing. */
  datatype Token = Token(id: Json, email: Json, iat: Option<int>, exp: Option<int>)

  /** `decodedToken.exp < Date.now() / 1000`; a missing `exp` compares
      false, so such a token never counts as expired here. */
  predicate ApiExpired(t: Token, nowMs: int) {
    t.exp.Some? && (t.exp.value as real) < (nowMs as real) / 1000.0
  }

  /** What the request interceptor decides: the `Authorization` header it
      sets, if any, and its effects on the browser. The request is sent in
      every case. */
  datatype Plan = Plan(authorization: Option<string>, effects: seq<Effect>)

  /** The request interceptor, for the jar `c`, the token decoder and the
      clock `nowMs`. */
  function PlanRequest(c: string, decode: string -> Option<Token>, nowMs: int): (p: Plan)
    ensures p.authorization.Some? ==> p.effects == []
    ensures GetCookie(c, "token").None? ==> p == Plan(None, [])
  {
    match GetCookie(c, "token")
    case None => Plan(None, [])
    case Some(token) =>
      match decode(token)
      case None => Plan(None, Purge + [ToLogin])
      case Some(t) =>
        if ApiExpired(t, nowMs) then Plan(None, Purge + [ToLogin])
        else Plan(Some("Bearer " + token), [])
  }

  /** The response interceptor's error handler for a page at `pathname`:
      a 401 purges the session and, away from the login pages, navigates to
      `/login`; the error is rejected again unchanged. */
  function OnResponseError(e: JsError, pathname: string): (r: (seq<Effect>, Completion<HttpResponse>))
    ensures r.1 == Threw(e)
    ensures ResponseStatus(e) != Some(401) ==> r.0 == []
  {
    if ResponseStatus(e) == Some(401) then
      (Purge + (if JsText.StartsWith(pathname, "/login") then [] else [ToLogin]), Threw(e))
    else ([], Threw(e))
  }

  /** The response interceptor's success handler passes the response on. */
  function OnResponse(res: HttpResponse): Completion<HttpResponse> {
    Returned(res)
  }

  // ---------------------------------------------------------------------

  /** The interceptor's three outcomes, in terms of the cookie, the decoder
      and the clock: a header exactly when the token decodes and has not
      expired; purge-and-redirect exactly when a token is present but
      undecodable or expired. */
  lemma PlanCases(c: string, decode: string -> Option<Token>, nowMs: int)
    ensures var p := PlanRequest(c, decode, nowMs);
            var cookie := GetCookie(c, "token");
            && (p.authorization.Some? <==>
                  cookie.Some? && decode(cookie.value).Some? && !ApiExpired(decode(cookie.value).value, nowMs))
            && (p.authorization.Some? ==> p.authorization.value == "Bearer " + cookie.value)
            && (p.effects != [] <==> cookie.Some? && !p.authorization.Some?)
            && (p.effects != [] ==> p.effects == Purge + [ToLogin])
  {
  }

  /** A token expiring exactly now is still sent. */
  lemma ExpiringNowIsSent(c: string, decode: string -> Option<Token>, nowMs: int, t: Token)
    requires GetCookie(c, "token").Some? && decode(GetCookie(c, "token").value) == Some(t)
    requires t.exp == Some(nowMs / 1000) && nowMs % 1000 == 0
    ensures PlanRequest(c, decode, nowMs).authorization == Some("Bearer " + GetCookie(c, "token").value)
  {
  }

  /** On the login pages a 401 purges but does not navigate, so there is
      no redirect loop; elsewhere it navigates after purging. */
  lemma UnauthorizedNavigation(e: JsError, pathname: string)
    requires ResponseStatus(e) == Some(401)
    ensures JsText.StartsWith(pathname, "/login") ==> OnResponseError(e, pathname).0 == Purge
    ensures !JsText.StartsWith(pathname, "/login") ==> OnResponseError(e, pathname).0 == Purge + [ToLogin]
  {
  }
}

=== FILE: auth_session.dfy ===
/** The session state machine of the authentication context
    (src/context/AuthContext.tsx): the startup check, login, register and
    logout, with the cookie writes and the state each leaves behind. */
module AuthSession {
  import opened Prelude
  import opened JsValue
  import opened Browser
  import opened ApiClient

  /** The context's `User`, its fields read from the backend's record as is. */
  datatype User = User(id: Json, nombre: Json, email: Json, createdAt: Json, updatedAt: Json)

  /** `user`, `token` (null as JNull) and `isLoading`. */
  datatype AuthState = AuthState(user: Option<User>, token: Json, isLoading: bool)

  const Initial: AuthState := AuthState(None, JNull, true)

  /** `isAuthenticated: !!user && !!token`. */
  predicate IsAuthenticated(s: AuthState) {
    s.user.Some? && Truthy(s.token)
  }

  /** The startup check's local test `decodedToken.exp > Date.now() / 1000`;
      a missing `exp` compares false, so such a token counts as expired. */
  predicate AuthFresh(t: Token, nowMs: int) {
    t.exp.Some? && (t.exp.value as real) > (nowMs as real) / 1000.0
  }

  /** The `_id`-to-`id` mapping of a backend user record; reading a field
      of a nullish record throws. */
  function MapUser(b: Json): (r: Completion<User>)
    ensures r.Returned? <==> !Nullish(b)
    ensures r.Threw? ==> r.error == TypeErrorValue
    ensures r.Returned? ==>
              && (Truthy(OptMember(b, "_id")) ==> r.value.id == OptMember(b, "_id"))
              && (!Truthy(OptMember(b, "_id")) ==> r.value.id == OptMember(b, "id"))
              && r.value.nombre == OptMember(b, "nombre") && r.value.email == OptMember(b, "email")
              && r.value.createdAt == OptMember(b, "createdAt") && r.value.updatedAt == OptMember(b, "updatedAt")
  {
    if Nullish(b) then Threw(TypeErrorValue)
    else Returned(User(Or(OptMember(b, "_id"), OptMember(b, "id")), OptMember(b, "nombre"),
                       OptMember(b, "email"), OptMember(b, "createdAt"), OptMember(b, "updatedAt")))
  }

  /** A transition's result: the new state, the browser effects in order,
      and how the call completed. */
  datatype Outcome = Outcome(state: AuthState, effects: seq<Effect>, result: Completion<()>)

  /** The user the profile response validates, if it does:
      `response.data.success && response.data.data`. */
  function ProfileUser(profile: Completion<HttpResponse>): Option<User> {
    match profile
    case Threw(_) => None
    case Returned(res) =>
      if Nullish(res.data) then None
      else
        var d := OptMember(res.data, "data");
        if Truthy(OptMember(res.data, "success")) && Truthy(d) then
          match MapUser(d)
          case Returned(u) => Some(u)
          case Threw(_) => None
        else None
  }

  /** `checkAuth` for the jar `c`, the decoder, the clock and the outcome
      of `GET /auth/profile` (consulted only for a locally fresh token). */
  function CheckAuth(s: AuthState, c: string, decode: string -> Option<Token>, nowMs: int,
                     profile: Completion<HttpResponse>): (o: Outcome)
    ensures !o.state.isLoading && o.result == Returned(())
    ensures o.effects == [] || o.effects == Purge
    ensures o.effects != [] ==> o.state == s.(isLoading := false)
  {
    match (GetCookie(c, "token"), GetCookie(c, "user"))
    case (Some(token), Some(_)) =>
      (match decode(token)
       case Some(t) =>
         if AuthFresh(t, nowMs) then
           match ProfileUser(profile)
           case Some(u) => Outcome(AuthState(Some(u), JStr(token), false), [], Returned(()))
           case None => Outcome(s.(isLoading := false), Purge, Returned(()))
         else Outcome(s.(isLoading := false), Purge, Returned(()))
       case None => Outcome(s.(isLoading := false), Purge, Returned(())))
    case _ => Outcome(s.(isLoading := false), [], Returned(()))
  }

  /** The days both session cookies last after sign-in. */
  const SessionDays: int := 7

  const LoginFallback := "Error al iniciar sesi\U{00F3}n"
  const RegisterFallback := "Error al registrarse"

  /** `const { token, user } = response.data.data` and the user mapping;
      destructuring or reading a field of a nullish value throws. */
  function SignInRecord(response: Completion<HttpResponse>): (r: Completion<(Json, User)>)
    ensures response.Threw? ==> r == Threw(response.error)
    ensures r.Returned? ==>
              var d := OptMember(response.value.data, "data");
              && response.Returned? && !Nullish(d)
              && r.value.0 == OptMember(d, "token")
              && MapUser(OptMember(d, "user")) == Returned(r.value.1)
  {
    match response
    case Threw(e) => Threw(e)
    case Returned(res) =>
      match Member(res.data, "data")
      case None => Threw(TypeErrorValue)
      case Some(d) =>
        if Nullish(d) then Threw(TypeErrorValue)
        else
          match MapUser(OptMember(d, "user"))
          case Threw(e) => Threw(e)
          case Returned(u) => Returned((OptMember(d, "token"), u))
  }

  /** The two `setCookie` calls after sign-in: the token as its text, then
      the user as `JSON.stringify` renders it, both for seven days. */
  function SessionWrites(tok: Json, u: User, nowMs: int, stringify: User -> string): (r: seq<Effect>)
    ensures |r| == 2 && r[0].Write? && r[1].Write?
    ensures r[0].w.name == "token" && r[0].w.value == ToText(tok)
    ensures r[1].w.name == "user" && r[1].w.value == stringify(u)
    ensures forall i :: 0 <= i < 2 ==> r[i].w.path == "/" && r[i].w.expiresMs == nowMs + 7 * 86400000
  {
    [Write(SetCookie("token", ToText(tok), SessionDays, nowMs)),
     Write(SetCookie("user", stringify(u), SessionDays, nowMs))]
  }

  /** The body shared by `login` and `register`: on success both cookies are
      written and the state holds the new user and token; any failure
      becomes an error carrying the body's `message` or `fallback`, with
      the state untouched and nothing written. */
  function SignIn(s: AuthState, response: Completion<HttpResponse>, fallback: string,
                  nowMs: int, stringify: User -> string): (o: Outcome)
    ensures o.result.Threw? <==> SignInRecord(response).Threw?
    ensures o.result.Threw? ==>
              && o.state == s && o.effects == [] && o.result.error.response.None?
              && o.result.error.message
                 == ToText(Or(OptMember(ResponseBody(SignInRecord(response).error), "message"), JStr(fallback)))
    ensures o.result.Returned? ==>
              && o.state == AuthState(Some(SignInRecord(response).value.1), SignInRecord(response).value.0, s.isLoading)
              && o.effects == SessionWrites(SignInRecord(response).value.0, SignInRecord(response).value.1, nowMs, stringify)
  {
    match SignInRecord(response)
    case Returned((tok, u)) =>
      Outcome(AuthState(Some(u), tok, s.isLoading), SessionWrites(tok, u, nowMs, stringify), Returned(()))
    case Threw(e) =>
      Outcome(s, [], Threw(PlainError(ToText(Or(OptMember(ResponseBody(e), "message"), JStr(fallback))))))
  }

  /** `login(email, password)`, given the outcome of `POST /auth/login`. */
  function Login(s: AuthState, response: Completion<HttpResponse>, nowMs: int, stringify: User -> string): (o: Outcome)
    ensures response.Threw? && response.error.response.None? ==>
              o.result == Threw(PlainError(LoginFallback)) && o.state == s && o.effects == []
    ensures o.result.Returned? ==> o.state.user.Some? && |o.effects| == 2
    ensures o == SignIn(s, response, LoginFallback, nowMs, stringify)
  {
    match response
    case Threw(e) =>
      SignInMessages(s, e, LoginFallback, nowMs, stringify);
      SignIn(s, response, LoginFallback, nowMs, stringify)
    case Returned(_) => SignIn(s, response, LoginFallback, nowMs, stringify)
  }

  /** `register(nombre, email, password)`, given the outcome of `POST
      /auth/register`. Its catch block also walks `errors` with `forEach`
      to log each entry; a truthy `errors` that is not an array has no
      `forEach`, and the TypeError that raises escapes in place of the
      message. */
  function Register(s: AuthState, response: Completion<HttpResponse>, nowMs: int, stringify: User -> string): (o: Outcome)
    ensures response.Threw? && response.error.response.None? ==>
              o.result == Threw(PlainError(RegisterFallback)) && o.state == s && o.effects == []
    ensures o.result.Returned? ==> o.state.user.Some? && |o.effects| == 2
    ensures SignInRecord(response).Threw? && BadErrorList(SignInRecord(response).error) ==>
              o.result == Threw(TypeErrorValue) && o.state == s && o.effects == []
    ensures !(SignInRecord(response).Threw? && BadErrorList(SignInRecord(response).error)) ==>
              o == SignIn(s, response, RegisterFallback, nowMs, stringify)
  {
    match response
    case Threw(e) =>
      SignInMessages(s, e, RegisterFallback, nowMs, stringify);
      if BadErrorList(e) then Outcome(s, [], Threw(TypeErrorValue))
      else SignIn(s, response, RegisterFallback, nowMs, stringify)
    case Returned(_) =>
      var o := SignIn(s, response, RegisterFallback, nowMs, stringify);
      match SignInRecord(response)
      case Threw(e) => if BadErrorList(e) then Outcome(s, [], Threw(TypeErrorValue)) else o
      case Returned(_) => o
  }

  /** `error.response?.data?.errors` is truthy but not an array. */
  predicate BadErrorList(e: JsError) {
    var errs := OptMember(ResponseBody(e), "errors");
    Truthy(errs) && !errs.JArr?
  }

  /** `logout`: whatever `POST /auth/logout` did, purge both cookies and
      forget the user and the token. */
  function Logout(s: AuthState, backend: Completion<HttpResponse>): (o: Outcome)
    ensures !IsAuthenticated(o.state) && o.state.user.None? && o.state.token == JNull
    ensures o.state.isLoading == s.isLoading
    ensures o.effects == Purge && o.result == Returned(())
  {
    Outcome(AuthState(None, JNull, s.isLoading), Purge, Returned(()))
  }

  // ---------------------------------------------------------------------

  /** The startup check authenticates exactly when both cookies are present,
      the token decodes, is locally fresh and the profile call validates a
      user; otherwise the state is kept (loading over) and the cookies are
      purged unless one of them was missing. */
  lemma CheckAuthCases(s: AuthState, c: string, decode: string -> Option<Token>, nowMs: int,
                       profile: Completion<HttpResponse>)
    ensures var o := CheckAuth(s, c, decode, nowMs, profile);
            var tc := GetCookie(c, "token");
            var signedIn := tc.Some? && GetCookie(c, "user").Some? && decode(tc.value).Some?
                            && AuthFresh(decode(tc.value).value, nowMs) && ProfileUser(profile).Some?;
            && (signedIn ==> o.state == AuthState(ProfileUser(profile), JStr(tc.value), false) && IsAuthenticated(o.state))
            && (!signedIn ==> o.state == s.(isLoading := false))
            && (o.effects == Purge <==> !signedIn && tc.Some? && GetCookie(c, "user").Some?)
  {
  }

  /** With exp present, the client's `exp < now` and the context's
      `exp > now` are never both true, and are both false exactly when the
      token expires this very millisecond; with exp missing the client
      sends it and the context rejects it. */
  lemma ExpiryBoundary(t: Token, nowMs: int)
    ensures !(ApiExpired(t, nowMs) && AuthFresh(t, nowMs))
    ensures t.exp.Some? ==> (!ApiExpired(t, nowMs) && !AuthFresh(t, nowMs) <==> t.exp.value * 1000 == nowMs)
    ensures t.exp.None? ==> !ApiExpired(t, nowMs) && !AuthFresh(t, nowMs)
  {
    if t.exp.Some? {
      var e := t.exp.value as real;
      var now := (nowMs as real) / 1000.0;
      assert (e == now) <==> (t.exp.value * 1000 == nowMs) by {
        assert now * 1000.0 == nowMs as real;
        assert (e == now) <==> (e * 1000.0 == now * 1000.0);
        assert e * 1000.0 == (t.exp.value * 1000) as real;
      }
    }
  }

  /** A session the startup check accepts, starting from no user, has its
      token sent on the next request at the same instant. */
  lemma AcceptedSessionIsSent(s: AuthState, c: string, decode: string -> Option<Token>, nowMs: int,
                              profile: Completion<HttpResponse>)
    requires s.user.None? && CheckAuth(s, c, decode, nowMs, profile).state.user.Some?
    ensures CheckAuth(s, c, decode, nowMs, profile).state.token.JStr?
    ensures PlanRequest(c, decode, nowMs).authorization
            == Some("Bearer " + CheckAuth(s, c, decode, nowMs, profile).state.token.s)
  {
    var token := GetCookie(c, "token").value;
    var t := decode(token).value;
    ExpiryBoundary(t, nowMs);
  }

  /** A sign-in whose token is a non-empty string authenticates. */
  lemma SignInAuthenticates(s: AuthState, response: Completion<HttpResponse>, fallback: string,
                            nowMs: int, stringify: User -> string)
    requires SignInRecord(response).Returned?
    requires SignInRecord(response).value.0.JStr? && SignInRecord(response).value.0.s != ""
    ensures IsAuthenticated(SignIn(s, response, fallback, nowMs, stringify).state)
    ensures SignIn(s, response, fallback, nowMs, stringify).effects[0].w.value == SignInRecord(response).value.0.s
  {
  }

  /** A rejected sign-in shows the backend's message when it is a non-empty
      string, and the fallback when the failure carried no response. */
  lemma SignInMessages(s: AuthState, e: JsError, fallback: string, nowMs: int, stringify: User -> string)
    requires fallback != ""
    ensures e.response.None? ==>
              SignIn(s, Threw(e), fallback, nowMs, stringify).result == Threw(PlainError(fallback))
    ensures (ResponseBody(e).JObj? && "message" in ResponseBody(e).fields
             && ResponseBody(e).fields["message"].JStr? && ResponseBody(e).fields["message"].s != "") ==>
              SignIn(s, Threw(e), fallback, nowMs, stringify).result
              == Threw(PlainError(ResponseBody(e).fields["message"].s))
  {
  }

  /** `!!user && !!token`: a user with an empty or null token is not
      authenticated. */
  lemma AuthenticatedNeedsBoth(u: User, t: string, l: bool)
    ensures IsAuthenticated(AuthState(Some(u), JStr(t), l)) <==> t != ""
    ensures !IsAuthenticated(AuthState(Some(u), JNull, l))
    ensures !IsAuthenticated(AuthState(None, JStr(t), l))
  {
  }

  /** Logging out ends the session whatever the backend answered. */
  lemma LogoutIgnoresBackend(s: AuthState, a: Completion<HttpResponse>, b: Completion<HttpResponse>)
    ensures Logout(s, a) == Logout(s, b)
  {
  }

  /** The two sign-in calls report the same failure differently when the
      backend's `errors` is not an array: login shows the body's message,
      register throws the TypeError of its logging loop. */
  lemma RegisterErrorLoop(s: AuthState, status: int, m: string, nowMs: int, stringify: User -> string)
    requires m != ""
    ensures var e := JsError("", Some(HttpResponse(status, JObj(map["message" := JStr(m), "errors" := JStr(m)]))));
            && Login(s, Threw(e), nowMs, stringify).result == Threw(PlainError(m))
            && Register(s, Threw(e), nowMs, stringify).result == Threw(TypeErrorValue)
  {
  }
}

=== FILE: browser.dfy ===
/** The browser side of the session: reading a cookie out of the
    `document.cookie` text, the cookie writes the application makes, and
    the navigations it triggers (src/services/api.ts, src/context/AuthContext.tsx).
    The cookie jar is the text the browser returns; writes and navigations
    are effects handed back to the caller. */
module Browser {
  import opened Prelude
  import JsText

  /** `getCookie(name)` over the jar text `c`: split `"; " + c` on
      `"; " + name + "="`; exactly two pieces means one occurrence, and the
      value is the second piece up to its first `;`; an empty value reads
      as absent. */
  function GetCookie(c: string, name: string): (r: Option<string>)
    ensures r.Some? ==> r.value != "" && ';' !in r.value
  {
    var parts := JsText.Split("; " + c, "; " + name + "=");
    if |parts| == 2 then
      var v := JsText.Split(parts[1], ";")[0];
      JsText.FirstPieceLacksSeparator(parts[1], ';');
      if v == "" then None else Some(v)
    else None
  }

  const DayMs: int := 24 * 60 * 60 * 1000

  /** A `document.cookie = ...` assignment: `name=value;expires=...;path=...`,
      the expiry as milliseconds since the epoch. */
  datatype CookieWrite = CookieWrite(name: string, value: string, expiresMs: int, path: string)

  /** `setCookie(name, value, days)`: expires `days` days from `nowMs`, path `/`. */
  function SetCookie(name: string, value: string, days: int, nowMs: int): (w: CookieWrite)
    ensures w.name == name && w.value == value && w.path == "/"
    ensures w.expiresMs - nowMs == days * 86400000
  {
    CookieWrite(name, value, nowMs + days * DayMs, "/")
  }

  /** `deleteCookie(name)`: an empty value expiring at the epoch (1970-01-01), path `/`. */
  function DeleteCookie(name: string): (w: CookieWrite)
    ensures w.name == name && w.value == "" && w.expiresMs == 0 && w.path == "/"
  {
    CookieWrite(name, "", 0, "/")
  }

  /** Effects the session code has on the browser. */
  datatype Effect = Write(w: CookieWrite) | Navigate(href: string)

  /** Deleting both session cookies, token first. */
  const Purge: seq<Effect> := [Write(DeleteCookie("token")), Write(DeleteCookie("user"))]

  /** `window.location.href = '/login'`. */
  const ToLogin: Effect := Navigate("/login")

  // ---------------------------------------------------------------------
  // Reading the jar

  /** A position whose character differs from the needle's first one is
      not an occurrence. */
  lemma NotAtOtherChar(s: string, sep: string, j: int)
    requires |sep| > 0 && 0 <= j < |s| && s[j] != sep[0]
    ensures !JsText.OccursAt(s, sep, j)
  {
    if j + |sep| <= |s| {
      assert s[j..j + |sep|][0] == s[j];
    }
  }

  /** Without the needle's first character there is nothing to split at. */
  lemma SplitWithoutHead(s: string, sep: string)
    requires |sep| > 0 && sep[0] !in s
    ensures JsText.Split(s, sep) == [s]
  {
    match JsText.IndexOf(s, sep)
    case None =>
    case Some(i) =>
      NotAtOtherChar(s, sep, i);
      assert false;
  }

  /** Splitting at the first occurrence `k` when the rest lacks the
      needle's first character gives exactly two pieces. */
  lemma {:induction false} SplitOnce(s: string, sep: string, k: nat)
    requires |sep| > 0 && JsText.OccursAt(s, sep, k)
    requires forall j :: 0 <= j < k ==> !JsText.OccursAt(s, sep, j)
    requires sep[0] !in s[k + |sep|..]
    ensures JsText.Split(s, sep) == [s[..k], s[k + |sep|..]]
  {
    var i := JsText.IndexOf(s, sep);
    assert i == Some(k);
    SplitWithoutHead(s[k + |sep|..], sep);
  }

  /** A jar holding one cookie gives its value back, an empty value as absent. */
  lemma {:induction false} ReadOnly(name: string, value: string)
    requires ';' !in value
    ensures GetCookie(name + "=" + value, name) == if value == "" then None else Some(value)
  {
    var s := "; " + (name + "=" + value);
    var sep := "; " + name + "=";
    assert s == sep + value;
    assert JsText.OccursAt(s, sep, 0) by { assert s[0..|sep|] == sep; }
    assert s[|sep|..] == value;
    SplitOnce(s, sep, 0);
    SplitWithoutHead(value, ";");
  }

  /** A cookie listed after another one is found; the other cookie's name
      must differ, which the text `name=` not starting it expresses. */
  lemma {:induction false} ReadAfterOther(other: string, name: string, value: string)
    requires ';' !in other && ';' !in name && ';' !in value && value != ""
    requires !JsText.StartsWith(other, name + "=")
    ensures GetCookie(other + "; " + name + "=" + value, name) == Some(value)
  {
    var s := "; " + (other + "; " + name + "=" + value);
    var sep := "; " + name + "=";
    var k := |other| + 2;
    assert s == "; " + other + sep + value;
    assert JsText.OccursAt(s, sep, k) by { assert s[k..k + |sep|] == sep; }
    forall j | 0 <= j < k
      ensures !JsText.OccursAt(s, sep, j)
    {
      if j == 0 {
        var key := name + "=";
        assert sep == "; " + key;
        if |other| >= |key| {
          assert s[2..2 + |key|] == other[..|key|];
        } else {
          assert ';' !in key;
          assert s[2..2 + |key|][|other|] == s[k] == ';';
        }
        assert s[2..2 + |key|] != key;
        assert s[..|sep|][2..] == s[2..2 + |key|];
      } else {
        assert s[j] != ';' by {
          if j >= 2 { assert s[j] == other[j - 2]; }
        }
        NotAtOtherChar(s, sep, j);
      }
    }
    assert s[k + |sep|..] == value;
    SplitOnce(s, sep, k);
    SplitWithoutHead(value, ";");
  }

  /** A jar in which `"; " + name + "="` does not occur yields nothing, so
      a cookie whose name merely ends in `name` is not matched. */
  lemma {:induction false} ReadAbsent(c: string, name: string)
    requires ';' !in c && ';' !in name
    requires !JsText.StartsWith(c, name + "=")
    ensures GetCookie(c, name) == None
  {
    var s := "; " + c;
    var sep := "; " + name + "=";
    forall j | 0 <= j
      ensures !JsText.OccursAt(s, sep, j)
    {
      if j == 0 {
        var key := name + "=";
        assert sep == "; " + key;
        if |c| >= |key| {
          assert s[2..2 + |key|] == c[..|key|];
          assert s[..|sep|][2..] == s[2..2 + |key|];
        }
      } else if j < |s| {
        assert s[j] != ';' by {
          if j >= 2 { assert s[j] == c[j - 2]; }
        }
        NotAtOtherChar(s, sep, j);
      }
    }
    assert JsText.Split(s, sep) == [s];
  }

  /** A name listed twice splits into three pieces and reads as absent. */
  lemma {:induction false} ReadDuplicate(name: string, a: string, b: string)
    requires ';' !in name && ';' !in a && ';' !in b
    ensures GetCookie(name + "=" + a + "; " + name + "=" + b, name) == None
  {
    var s := "; " + (name + "=" + a + "; " + name + "=" + b);
    var sep := "; " + name + "=";
    var rest := a + "; " + name + "=" + b;
    assert s == sep + rest;
    assert JsText.OccursAt(s, sep, 0) by { assert s[0..|sep|] == sep; }
    assert JsText.IndexOf(s, sep) == Some(0);
    assert s[|sep|..] == rest;
    var k := |a|;
    assert rest == a + sep + b;
    assert JsText.OccursAt(rest, sep, k) by { assert rest[k..k + |sep|] == sep; }
    forall j | 0 <= j < k
      ensures !JsText.OccursAt(rest, sep, j)
    {
      assert rest[j] == a[j];
      NotAtOtherChar(rest, sep, j);
    }
    assert rest[k + |sep|..] == b;
    SplitOnce(rest, sep, k);
    assert JsText.Split(s, sep) == [""] + JsText.Split(rest, sep);
  }
}

=== FILE: catalog_service.dfy ===
/** The catalog-service domain service (src/services/servicioService.ts):
    URLs, payload shaping, response normalisation and the messages of the
    errors it throws. */
module CatalogService {
  import opened Prelude
  import opened JsValue
  import opened Domain
  import opened Query
  import JsText
  import ContractService

  /** `getServicios`: the URL requested. */
  function ListUrl(p: ListParams, encode: string -> string): string {
    WithQuery("/services", QueryPairs("tipo", p), encode)
  }

  /** `servicios.length` for the truthy value the list ends up as. */
  function LengthOf(v: Json): Json {
    match v
    case JArr(xs) => JNum(|xs|)
    case JStr(s) => JNum(|s|)
    case JObj(m) => if "length" in m then m["length"] else JUndefined
    case _ => JUndefined
  }

  /** The first truthy of `data.data?.services`, `data.services`,
      `data.data`, `data`, else `[]`. */
  function ServicesOf(body: Json): Json
    requires !Nullish(body)
  {
    var d := OptMember(body, "data");
    Or(Or(Or(Or(OptMember(d, "services"), OptMember(body, "services")), d), body), JArr([]))
  }

  /** `getServicios`: the normalised list and its pagination; the default
      block counts the list. */
  function ListResult(response: Completion<HttpResponse>): (r: Completion<Listing>)
    ensures response.Threw? ==> r == Threw(response.error)
    ensures response.Returned? && Nullish(response.value.data) ==> r == Threw(TypeErrorValue)
    ensures response.Returned? && !Nullish(response.value.data) ==>
              var body := response.value.data;
              var d := OptMember(body, "data");
              && r.Returned?
              && Truthy(r.value.items)
              && (Truthy(OptMember(d, "services")) ==> r.value.items == OptMember(d, "services"))
              && (!Truthy(OptMember(d, "services")) && Truthy(OptMember(body, "services")) ==>
                    r.value.items == OptMember(body, "services"))
              && (!Truthy(OptMember(d, "services")) && !Truthy(OptMember(body, "services")) && Truthy(d) ==>
                    r.value.items == d)
              && (!Truthy(OptMember(d, "services")) && !Truthy(OptMember(body, "services")) && !Truthy(d) ==>
                    r.value.items == (if Truthy(body) then body else JArr([])))
              && (Truthy(OptMember(d, "pagination")) ==> r.value.pagination == OptMember(d, "pagination"))
              && (!Truthy(OptMember(d, "pagination")) ==>
                    r.value.pagination == DefaultPagination(LengthOf(r.value.items)))
  {
    match response
    case Threw(e) => Threw(e)
    case Returned(res) =>
      if Nullish(res.data) then Threw(TypeErrorValue)
      else
        var items := ServicesOf(res.data);
        Returned(Listing(items, Or(OptMember(OptMember(res.data, "data"), "pagination"),
                                   DefaultPagination(LengthOf(items)))))
  }

  /** `getServicioById` and `updateServicio`: `data.data || data`, errors
      rethrown unchanged. */
  function ByIdResult(response: Completion<HttpResponse>): (r: Completion<Json>)
    ensures response.Threw? ==> r == Threw(response.error)
    ensures response.Returned? && Nullish(response.value.data) ==> r == Threw(TypeErrorValue)
    ensures response.Returned? && !Nullish(response.value.data) ==>
              r.Returned?
              && (Truthy(OptMember(response.value.data, "data")) ==> r.value == OptMember(response.value.data, "data"))
              && (!Truthy(OptMember(response.value.data, "data")) ==> r.value == response.value.data)
  {
    match response
    case Threw(e) => Threw(e)
    case Returned(res) =>
      match Member(res.data, "data")
      case None => Threw(TypeErrorValue)
      case Some(d) => Returned(Or(d, res.data))
  }

  /** `CreateServicioRequest` and the body `createServicio` posts. */
  datatype CreateRequest = CreateRequest(nombre: string, descripcion: string, precio: real, tipo: string)

  /** The posted body: name and description trimmed, price and type as given. */
  function CreatePayload(req: CreateRequest): (r: CreateRequest)
    ensures r.precio == req.precio && r.tipo == req.tipo
    ensures |r.nombre| <= |req.nombre| && |r.descripcion| <= |req.descripcion|
    ensures r.nombre == JsText.Trim(req.nombre) && r.descripcion == JsText.Trim(req.descripcion)
  {
    CreateRequest(JsText.Trim(req.nombre), JsText.Trim(req.descripcion), req.precio, req.tipo)
  }

  const ConflictMessage := "Ya existe un servicio con ese nombre. Por favor, elige un nombre diferente."
  const ServerFallback := "Error del servidor"
  const UnknownFallback := "Error desconocido del servidor"

  /** The `try` block of `createServicio`: the post's outcome, then
      `success ? data : throw new Error(message || 'Error del servidor')`. */
  function CreateAttempt(response: Completion<HttpResponse>): Completion<Json> {
    match response
    case Threw(e) => Threw(e)
    case Returned(res) =>
      match Member(res.data, "success")
      case None => Threw(TypeErrorValue)
      case Some(ok) =>
        if Truthy(ok) then Returned(OptMember(res.data, "data"))
        else Threw(PlainError(ToText(Or(OptMember(res.data, "message"), JStr(ServerFallback)))))
  }

  /** The `catch` block of `createServicio`: a 409 always becomes the fixed
      conflict message; anything else becomes the first truthy of the
      body's `message`, its `error`, the error's own message, or the
      generic text. */
  function CreateError(e: JsError): (r: JsError)
    ensures r.response.None?
    ensures ResponseStatus(e) == Some(409) ==> r.message == ConflictMessage
  {
    if ResponseStatus(e) == Some(409) then PlainError(ConflictMessage)
    else
      var body := ResponseBody(e);
      PlainError(ToText(Or(Or(Or(OptMember(body, "message"), OptMember(body, "error")),
                              JStr(e.message)), JStr(UnknownFallback))))
  }

  /** `createServicio`: what the store receives. */
  function CreateResult(response: Completion<HttpResponse>): (r: Completion<Json>)
    ensures r.Threw? ==> r.error.response.None?
    ensures r.Returned? <==>
              response.Returned? && !Nullish(response.value.data)
              && Truthy(OptMember(response.value.data, "success"))
    ensures r.Returned? ==> r.value == OptMember(response.value.data, "data")
    ensures response.Returned? && Nullish(response.value.data) ==> r == Threw(PlainError(TypeErrorText))
  {
    match CreateAttempt(response)
    case Returned(d) => Returned(d)
    case Threw(e) => Threw(CreateError(e))
  }

  /** `UpdateServicioRequest`, every field optional, and the body `updateServicio` sends. */
  datatype UpdateRequest = UpdateRequest(
    nombre: Option<string>, descripcion: Option<string>, precio: Option<real>, tipo: Option<string>)

  function TrimPresent(v: Option<string>): Option<string> {
    match v
    case Some(s) => Some(JsText.Trim(s))
    case None => None
  }

  /** The sent body: present texts trimmed, a falsy price (0) dropped. */
  function UpdatePayload(req: UpdateRequest): (r: UpdateRequest)
    ensures r.tipo == req.tipo
    ensures r.nombre.Some? <==> req.nombre.Some?
    ensures r.descripcion.Some? <==> req.descripcion.Some?
    ensures req.nombre.Some? ==> r.nombre.value == JsText.Trim(req.nombre.value)
    ensures req.descripcion.Some? ==> r.descripcion.value == JsText.Trim(req.descripcion.value)
    ensures r.precio.Some? <==> req.precio.Some? && req.precio.value != 0.0
    ensures r.precio.Some? ==> r.precio == req.precio
  {
    UpdateRequest(
      TrimPresent(req.nombre), TrimPresent(req.descripcion),
      if req.precio.Some? && req.precio.value != 0.0 then req.precio else None,
      req.tipo)
  }

  /** `/services/{id}` for get, update and delete; `deleteServicio`'s
      outcome is `ContractService.DeleteResult`. */
  function ItemUrl(id: string): string {
    "/services/" + id
  }

  /** `getServiciosByTipo(tipo, params)`: `getServicios({ tipo, ...params })`. */
  function ByTipoParams(tipo: string, p: PageParams): (r: ListParams)
    ensures r.filter == Some(tipo) && r.page == p.page && r.limit == p.limit
  {
    ListParams(Some(tipo), p.page, p.limit)
  }

  // ---------------------------------------------------------------------

  /** A 409 yields the conflict message whatever the body says. */
  lemma ConflictIgnoresBody(body: Json, message: string)
    ensures CreateResult(Threw(JsError(message, Some(HttpResponse(409, body)))))
            == Threw(PlainError(ConflictMessage))
  {
  }

  /** Any other failure surfaces the body's message first, then its `error`,
      then the error's own message, then the generic text. */
  lemma OtherFailureMessages(status: int, m: string, alt: string, own: string)
    requires status != 409
    ensures m != "" ==>
              CreateResult(Threw(JsError(own, Some(HttpResponse(status,
                JObj(map["message" := JStr(m), "error" := JStr(alt)]))))))
              == Threw(PlainError(m))
    ensures alt != "" ==>
              CreateResult(Threw(JsError(own, Some(HttpResponse(status, JObj(map["error" := JStr(alt)]))))))
              == Threw(PlainError(alt))
    ensures CreateResult(Threw(JsError(own, None)))
            == Threw(PlainError(if own != "" then own else UnknownFallback))
  {
  }

  /** A 2xx whose `success` is false surfaces the body's message, or
      "Error del servidor". */
  lemma UnsuccessfulBody(status: int, m: string)
    ensures m != "" ==>
              CreateResult(Returned(HttpResponse(status,
                JObj(map["success" := JBool(false), "message" := JStr(m)]))))
              == Threw(PlainError(m))
    ensures CreateResult(Returned(HttpResponse(status, JObj(map["success" := JBool(false)]))))
            == Threw(PlainError(ServerFallback))
  {
  }

  /** A price of 0 is not sent on update. */
  lemma ZeroPriceDropped(req: UpdateRequest)
    requires req.precio == Some(0.0)
    ensures UpdatePayload(req).precio.None?
  {
  }

  /** Without a pagination block, the catalog's `totalItems` is the list's
      length while the contract service's is always 0. */
  lemma DefaultTotalsDiffer(status: int, xs: seq<Json>)
    ensures var body := JObj(map["data" := JObj(map["services" := JArr(xs), "contracts" := JArr(xs)])]);
            && ListResult(Returned(HttpResponse(status, body)))
               == Returned(Listing(JArr(xs), DefaultPagination(JNum(|xs|))))
            && ContractService.ListResult(Returned(HttpResponse(status, body))) == Returned(Listing(JArr(xs), DefaultPagination(JNum(0))))
  {
  }

}

=== FILE: catalog_store.dfy ===
/** The catalog-service store (src/store/serviceStore.ts): the shared store
    behaviour instantiated for catalog services, keyed by `_id`. */
module CatalogStore {
  import opened Prelude
  import opened JsValue
  import opened Domain
  import opened StoreCore
  import Seqs

  type State = Store<Service>

  const FetchFallback := "Error al cargar servicios"
  const GetByIdFallback := "Error al obtener servicio"
  const CreateFallback := "Error al crear servicio"
  const UpdateFallback := "Error al actualizar servicio"
  const DeleteFallback := "Error al eliminar servicio"
  const ByTipoFallback := "Error al obtener servicios por tipo"

  /** `fetchServicios`: success stores the `{servicios, pagination}` record;
      failure keeps the cache and does not rethrow. */
  function FetchServicios(s: State, call: Completion<Listing>): (r: State)
    ensures !r.isLoading
    ensures call.Returned? ==> r.cache == Fetched(call.value) && r.error.None? && Entries(r.cache) == []
    ensures call.Threw? ==> r.cache == s.cache
    ensures call.Threw? && call.error.message == "" ==> r.error == Some(FetchFallback)
    ensures call.Threw? && call.error.message != "" ==> r.error == Some(call.error.message)
  {
    Fetch(s, call, FetchFallback)
  }

  /** `getServicioById`: a pass-through read. */
  function GetServicioById(s: State, call: Completion<Service>): (r: Step<Service, Service>)
    ensures r.store.cache == s.cache && !r.store.isLoading && r.outcome == call
    ensures call.Threw? ==> r.store.error == Some(MessageOr(call.error, GetByIdFallback))
    ensures call.Returned? ==> r.store.error.None?
  {
    Read(s, call, GetByIdFallback)
  }

  /** `createServicio`: append at the end, other entries untouched. */
  function CreateServicio(s: State, call: Completion<Service>): (r: Step<Service, ()>)
    ensures !r.store.isLoading
    ensures call.Returned? && s.cache.Items? ==>
              r.outcome.Returned? && r.store.error.None?
              && Entries(r.store.cache) == s.cache.entries + [call.value]
    ensures call.Threw? ==>
              r.outcome == Threw(call.error) && r.store.cache == s.cache
              && r.store.error == Some(MessageOr(call.error, CreateFallback))
  {
    Create(s, call, CreateFallback)
  }

  /** `updateServicio`: every entry with that `_id` becomes the returned
      service; length and order are kept. */
  function UpdateServicio(s: State, id: string, call: Completion<Service>): (r: Step<Service, ()>)
    ensures !r.store.isLoading
    ensures call.Returned? && s.cache.Items? ==>
              r.outcome.Returned? && r.store.error.None?
              && |Entries(r.store.cache)| == |s.cache.entries|
              && forall i :: 0 <= i < |s.cache.entries| ==>
                   Entries(r.store.cache)[i]
                   == (if s.cache.entries[i].id == id then call.value else s.cache.entries[i])
    ensures call.Threw? ==>
              r.outcome == Threw(call.error) && r.store.cache == s.cache
              && r.store.error == Some(MessageOr(call.error, UpdateFallback))
  {
    Update(s, ServiceKey, id, call, UpdateFallback)
  }

  /** `deleteServicio`: exactly the entries with that `_id` are removed. */
  function DeleteServicio(s: State, id: string, call: Completion<()>): (r: Step<Service, ()>)
    ensures !r.store.isLoading
    ensures call.Returned? && s.cache.Items? ==>
              r.outcome.Returned? && r.store.error.None?
              && (forall i :: 0 <= i < |Entries(r.store.cache)| ==>
                    Entries(r.store.cache)[i].id != id && Entries(r.store.cache)[i] in s.cache.entries)
              && (forall i :: 0 <= i < |s.cache.entries| && s.cache.entries[i].id != id ==>
                    s.cache.entries[i] in Entries(r.store.cache))
              && Seqs.IsSubsequence(Entries(r.store.cache), s.cache.entries)
              && r.store.cache == Items(RemoveWhere(s.cache.entries, ServiceKey, id))
    ensures call.Threw? ==>
              r.outcome == Threw(call.error) && r.store.cache == s.cache
              && r.store.error == Some(MessageOr(call.error, DeleteFallback))
  {
    Delete(s, ServiceKey, id, call, DeleteFallback)
  }

  /** `getServiciosByTipo`: a pass-through read. */
  function GetServiciosByTipo(s: State, call: Completion<Listing>): (r: Step<Service, Listing>)
    ensures r.store.cache == s.cache && !r.store.isLoading && r.outcome == call
    ensures call.Threw? ==> r.store.error == Some(MessageOr(call.error, ByTipoFallback))
  {
    Read(s, call, ByTipoFallback)
  }

  /** `clearError`. */
  function ClearServicioError(s: State): (r: State)
    ensures r == s.(error := None)
  {
    ClearError(s)
  }

  /** The delete action applied twice removes nothing the second time. */
  lemma DeleteServicioTwice(s: State, id: string)
    requires s.cache.Items?
    ensures var once := DeleteServicio(s, id, Returned(())).store;
            DeleteServicio(once, id, Returned(())).store == once
  {
    DeleteTwice(s, ServiceKey, id, DeleteFallback);
  }
}

=== FILE: contract_edit_form.dfy ===
/** The contract edit page (src/pages/ContratoEditar.tsx): loading a
    contract into the form, the unvalidated submit, and the disabled
    predicate of its button. */
module ContractEditForm {
  import opened Prelude
  import opened JsValue
  import opened Domain
  import JsText
  import Selection

  /** The form's fields; this page names the number `numero`. */
  datatype EditDraft = EditDraft(
    numero: string, fechaInicio: string, fechaFin: string,
    estado: Estado, serviciosIds: seq<string>)

  const Empty: EditDraft := EditDraft("", "", "", Activo, [])

  const LoadFallback := "Error al cargar datos"
  const UpdateFallback := "Error al actualizar contrato"

  /** `text.split('T')[0]`: the date part of an ISO timestamp. */
  function DatePart(text: string): (r: string)
    ensures 'T' !in r
    ensures JsText.StartsWith(text, r)
    ensures 'T' !in text ==> r == text
  {
    JsText.FirstPieceLacksSeparator(text, 'T');
    NoSeparatorSplit(text);
    JsText.Split(text, "T")[0]
  }

  lemma NoSeparatorSplit(text: string)
    ensures 'T' !in text ==> JsText.Split(text, "T") == [text]
  {
    match JsText.IndexOf(text, "T")
    case None =>
    case Some(i) =>
      JsText.OccursAtChar(text, 'T', i);
  }

  /** The form filled from a loaded contract. */
  function FromContract(c: Contract): (d: EditDraft)
    ensures d.numero == c.numero && d.estado == c.estado && d.serviciosIds == c.serviciosIds
    ensures d.fechaInicio == DatePart(c.fechaInicio) && d.fechaFin == DatePart(c.fechaFin)
  {
    EditDraft(c.numero, DatePart(c.fechaInicio), DatePart(c.fechaFin), c.estado, c.serviciosIds)
  }

  /** The page after `loadData`: the form, the message shown and whether
      the spinner is still up. */
  datatype Loaded = Loaded(form: EditDraft, error: string, loadingData: bool)

  /** `loadData` for route id `id`, given the outcome of `getContratoById`
      (the catalog fetch before it never throws). An empty id returns
      before anything, leaving the spinner up. */
  function Load(id: string, got: Completion<Contract>): (r: Loaded)
    ensures id == "" ==> r == Loaded(Empty, "", true)
    ensures id != "" ==> !r.loadingData
    ensures id != "" && got.Returned? ==> r == Loaded(FromContract(got.value), "", false)
    ensures id != "" && got.Threw? ==> r == Loaded(Empty, MessageOr(got.error, LoadFallback), false)
  {
    if id == "" then Loaded(Empty, "", true)
    else
      match got
      case Returned(c) => Loaded(FromContract(c), "", false)
      case Threw(e) => Loaded(Empty, MessageOr(e, LoadFallback), false)
  }

  /** What a submission does: nothing, or send the form as it stands. */
  datatype Submitted =
    | Ignored
    | Sent(id: string, body: EditDraft, error: string, navigate: Option<string>)

  /** `handleSubmit`, given the outcome of `updateContrato(id, formData)`;
      the form is sent without any check. */
  function HandleSubmit(id: string, d: EditDraft, updated: Completion<()>): (r: Submitted)
    ensures r.Ignored? <==> id == ""
    ensures r.Sent? ==> r.id == id && r.body == d
    ensures r.Sent? ==> (r.navigate.Some? <==> updated.Returned?)
    ensures r.Sent? && updated.Returned? ==> r.navigate == Some("/contratos/" + id) && r.error == ""
    ensures r.Sent? && updated.Threw? ==> r.error == MessageOr(updated.error, UpdateFallback)
  {
    if id == "" then Ignored
    else
      match updated
      case Returned(_) => Sent(id, d, "", Some("/contratos/" + id))
      case Threw(e) => Sent(id, d, MessageOr(e, UpdateFallback), None)
  }

  /** The update button's `disabled` expression. */
  predicate Disabled(d: EditDraft) {
    d.numero == "" || d.fechaInicio == "" || d.fechaFin == "" || |d.serviciosIds| == 0
  }

  /** `handleServicioToggle`. */
  function ToggleService(d: EditDraft, id: string): (r: EditDraft)
    ensures r.serviciosIds == Selection.Toggle(d.serviciosIds, id)
    ensures r.numero == d.numero && r.fechaInicio == d.fechaInicio
            && r.fechaFin == d.fechaFin && r.estado == d.estado
  {
    d.(serviciosIds := Selection.Toggle(d.serviciosIds, id))
  }

  // ---------------------------------------------------------------------

  /** An ISO timestamp loads as its date. */
  lemma {:induction false} IsoTimestampLoadsDate(date: string, time: string)
    requires 'T' !in date
    ensures DatePart(date + "T" + time) == date
  {
    var s := date + "T" + time;
    assert JsText.OccursAt(s, "T", |date|) by { assert s[|date|..|date| + 1] == "T"; }
    forall j | 0 <= j < |date|
      ensures !JsText.OccursAt(s, "T", j)
    {
      JsText.OccursAtChar(s, 'T', j);
      assert s[j] == date[j];
    }
    assert JsText.IndexOf(s, "T") == Some(|date|);
    assert s[..|date|] == date;
  }

  /** Loading a date-only value and submitting sends it back unchanged. */
  lemma DateOnlyRoundTrip(c: Contract, updated: Completion<()>)
    requires 'T' !in c.fechaInicio && 'T' !in c.fechaFin && c.id != ""
    ensures var r := HandleSubmit(c.id, Load(c.id, Returned(c)).form, updated);
            r.Sent? && r.body.fechaInicio == c.fechaInicio && r.body.fechaFin == c.fechaFin
            && r.body.numero == c.numero && r.body.serviciosIds == c.serviciosIds
  {
  }

  /** The button guards what the handler does not check, but an empty
      form still goes out when submitted otherwise. */
  lemma EmptyFormIsSent(id: string, updated: Completion<()>)
    requires id != ""
    ensures Disabled(Empty)
    ensures HandleSubmit(id, Empty, updated).Sent?
  {
  }

  /** The handler checks nothing: every draft the button disables is still
      sent when submitted with an id. */
  lemma DisabledDraftIsSent(id: string, d: EditDraft, updated: Completion<()>)
    requires id != "" && Disabled(d)
    ensures HandleSubmit(id, d, updated).Sent? && HandleSubmit(id, d, updated).body == d
  {
  }
}

=== FILE: contract_form.dfy ===
/** The contract creation page (src/app/contratos/nuevo/page.tsx): the
    submit handler's validation chain, the payload it sends, how it words
    a backend failure, and when its submit button is disabled. Dates are
    the milliseconds `new Date(text)` yields, None for an invalid date. */
module ContractForm {
  import opened Prelude
  import opened JsValue
  import opened Domain
  import JsText
  import Selection

  /** The form's fields. */
  datatype Draft = Draft(
    numeroContrato: string, fechaInicio: string, fechaFin: string,
    estado: Estado, serviciosIds: seq<string>)

  /** The body handed to `createContrato`. */
  datatype Payload = Payload(
    numeroContrato: string, fechaInicio: string, fechaFin: string,
    estado: Estado, serviciosIds: seq<string>, usuarioId: Json)

  /** The validation steps, in the order the handler runs them. */
  datatype Check =
    | MissingFields | NoServices | EndNotAfterStart | StartBeforeToday
    | BadNumberFormat | BadNumberLength | NotAuthenticated

  function CheckMessage(c: Check): string {
    match c
    case MissingFields => "Todos los campos son obligatorios"
    case NoServices => "Debes seleccionar al menos un servicio"
    case EndNotAfterStart => "La fecha de fin debe ser posterior a la fecha de inicio"
    case StartBeforeToday => "La fecha de inicio no puede ser anterior a hoy"
    case BadNumberFormat => "El n\U{00FA}mero de contrato solo puede contener letras may\U{00FA}sculas, n\U{00FA}meros y guiones"
    case BadNumberLength => "El n\U{00FA}mero de contrato debe tener entre 3 y 20 caracteres"
    case NotAuthenticated => "Usuario no autenticado"
  }

  /** The message `toISOString` throws for an invalid date. */
  const InvalidTime := "Invalid time value"

  const CreateFallback := "Error al crear contrato"

  /** A character of the class `[A-Z0-9-]`. */
  predicate NumberChar(c: char) {
    ('A' <= c <= 'Z') || ('0' <= c <= '9') || c == '-'
  }

  /** `/^[A-Z0-9-]+$/.test(n)`. */
  predicate NumberPattern(n: string) {
    |n| > 0 && forall i :: 0 <= i < |n| ==> NumberChar(n[i])
  }

  /** `new Date(b) <= new Date(a)`: a comparison with an invalid date is false. */
  predicate NotAfter(b: Option<int>, a: Option<int>) {
    b.Some? && a.Some? && b.value <= a.value
  }

  /** `new Date(a) < hoy`. */
  predicate Before(a: Option<int>, todayMs: int) {
    a.Some? && a.value < todayMs
  }

  predicate Missing(d: Draft) {
    d.numeroContrato == "" || d.fechaInicio == "" || d.fechaFin == ""
  }

  /** The first check the draft fails, for the date parser, the start of
      today (local midnight) and `user?.id`. */
  function FirstFailure(d: Draft, parseDate: string -> Option<int>, todayMs: int, userId: Json): Option<Check> {
    if Missing(d) then Some(MissingFields)
    else if |d.serviciosIds| == 0 then Some(NoServices)
    else if NotAfter(parseDate(d.fechaFin), parseDate(d.fechaInicio)) then Some(EndNotAfterStart)
    else if Before(parseDate(d.fechaInicio), todayMs) then Some(StartBeforeToday)
    else if !NumberPattern(d.numeroContrato) then Some(BadNumberFormat)
    else if |d.numeroContrato| < 3 || |d.numeroContrato| > 20 then Some(BadNumberLength)
    else if !Truthy(userId) then Some(NotAuthenticated)
    else None
  }

  /** The payload for a draft that passed every check, or the error
      `toISOString` raises for a date that is still invalid. */
  function BuildPayload(d: Draft, parseDate: string -> Option<int>, userId: Json, iso: int -> string): Result<Payload, string> {
    match (parseDate(d.fechaInicio), parseDate(d.fechaFin))
    case (Some(a), Some(b)) =>
      Ok(Payload(JsText.Upper(JsText.Trim(d.numeroContrato)), iso(a), iso(b), d.estado, d.serviciosIds, userId))
    case _ => Err(InvalidTime)
  }

  /** The text of one backend validation entry, `path: msg`; reading a
      field of a nullish entry throws. */
  function EntryText(e: Json): Option<string> {
    if Nullish(e) then None
    else Some(ToText(Or(OptMember(e, "path"), JStr("Campo"))) + ": "
              + ToText(Or(Or(OptMember(e, "msg"), OptMember(e, "message")), JStr("Error desconocido"))))
  }

  function EntryTexts(es: seq<Json>): (r: Option<seq<string>>)
    ensures r.Some? ==> |r.value| == |es|
    ensures r.Some? <==> forall i :: 0 <= i < |es| ==> !Nullish(es[i])
    ensures r.Some? ==> forall i :: 0 <= i < |es| ==> Some(r.value[i]) == EntryText(es[i])
  {
    if |es| == 0 then Some([])
    else
      match EntryText(es[0])
      case None => None
      case Some(t) =>
        match EntryTexts(es[1..])
        case None => None
        case Some(ts) => Some([t] + ts)
  }

  /** The catch block's message for a failed `createContrato`: the list of
      backend validation errors, else the body's `message`, else the
      error's own message or the default. None when formatting itself
      throws (a nullish entry), so the message is never set. */
  function FormatError(err: JsError): (r: Option<string>)
    ensures var errors := OptMember(ResponseBody(err), "errors");
            r.None? <==> errors.JArr? && exists i :: 0 <= i < |errors.items| && Nullish(errors.items[i])
  {
    var body := ResponseBody(err);
    var errors := OptMember(body, "errors");
    if Truthy(errors) && errors.JArr? then
      match EntryTexts(errors.items)
      case Some(ts) => Some("Errores de validaci\U{00F3}n: " + JsText.Join(ts, ", "))
      case None => None
    else if Truthy(OptMember(body, "message")) then Some(ToText(OptMember(body, "message")))
    else Some(MessageOr(err, CreateFallback))
  }

  /** What a submission leaves: the message shown (empty for none), the
      payload sent if any, and where the page navigates. */
  datatype Outcome = Outcome(error: string, sent: Option<Payload>, navigate: Option<string>)

  /** `handleSubmit`, given the outcome `created` of awaiting
      `createContrato` on the payload (consulted only when one is sent). */
  function HandleSubmit(d: Draft, parseDate: string -> Option<int>, todayMs: int, userId: Json,
                        iso: int -> string, created: Completion<()>): (o: Outcome)
    ensures o.sent.Some? <==> FirstFailure(d, parseDate, todayMs, userId).None?
                              && BuildPayload(d, parseDate, userId, iso).Ok?
    ensures FirstFailure(d, parseDate, todayMs, userId).Some? ==>
              o == Outcome(CheckMessage(FirstFailure(d, parseDate, todayMs, userId).value), None, None)
    ensures o.navigate.Some? <==> o.sent.Some? && created.Returned?
    ensures o.navigate.Some? ==> o.navigate.value == "/dashboard" && o.error == ""
    ensures o.sent.Some? && created.Threw? ==> o.error == FormatError(created.error).GetOr("")
    ensures FirstFailure(d, parseDate, todayMs, userId).None? && BuildPayload(d, parseDate, userId, iso).Err? ==>
              o == Outcome(InvalidTime, None, None)
  {
    match FirstFailure(d, parseDate, todayMs, userId)
    case Some(c) => Outcome(CheckMessage(c), None, None)
    case None =>
      match BuildPayload(d, parseDate, userId, iso)
      case Err(m) => Outcome(m, None, None)
      case Ok(p) =>
        match created
        case Returned(_) => Outcome("", Some(p), Some("/dashboard"))
        case Threw(e) => Outcome(FormatError(e).GetOr(""), Some(p), None)
  }

  /** The submit button's `disabled` expression. */
  predicate Disabled(d: Draft) {
    Missing(d) || |d.serviciosIds| == 0
  }

  /** `handleServicioToggle`. */
  function ToggleService(d: Draft, id: string): (r: Draft)
    ensures r.serviciosIds == Selection.Toggle(d.serviciosIds, id)
    ensures r.numeroContrato == d.numeroContrato && r.fechaInicio == d.fechaInicio
            && r.fechaFin == d.fechaFin && r.estado == d.estado
  {
    d.(serviciosIds := Selection.Toggle(d.serviciosIds, id))
  }

  // ---------------------------------------------------------------------

  /** An entry reads as its `path`, else "Campo", then its `msg`, else its
      `message`, else "Error desconocido"; only a nullish entry fails. */
  lemma EntryWording(e: Json)
    ensures EntryText(e).None? <==> Nullish(e)
    ensures !Nullish(e) ==>
              var path, msg, message := OptMember(e, "path"), OptMember(e, "msg"), OptMember(e, "message");
              EntryText(e) == Some((if Truthy(path) then ToText(path) else "Campo") + ": "
                                   + (if Truthy(msg) then ToText(msg)
                                      else if Truthy(message) then ToText(message)
                                      else "Error desconocido"))
  {
  }

  /** Any validation list without nullish entries is shown as the prefix
      and every entry's text, in list order, joined with ", ". */
  lemma {:induction false} ErrorWordingAnyList(own: string, status: int, body: Json, es: seq<Json>)
    requires OptMember(body, "errors") == JArr(es)
    requires forall i :: 0 <= i < |es| ==> !Nullish(es[i])
    ensures FormatError(JsError(own, Some(HttpResponse(status, body))))
            == Some("Errores de validaci\U{00F3}n: "
                    + JsText.Join(seq(|es|, i requires 0 <= i < |es| => EntryText(es[i]).value), ", "))
  {
    var ts := EntryTexts(es).value;
    assert ts == seq(|es|, i requires 0 <= i < |es| => EntryText(es[i]).value);
  }

  /** Each check fires exactly when every earlier one passed and it fails. */
  lemma CheckOrder(d: Draft, parseDate: string -> Option<int>, todayMs: int, userId: Json)
    ensures var f := FirstFailure(d, parseDate, todayMs, userId);
            var start := parseDate(d.fechaInicio);
            var end := parseDate(d.fechaFin);
            && (f == Some(MissingFields) <==> Missing(d))
            && (f == Some(NoServices) <==> !Missing(d) && |d.serviciosIds| == 0)
            && (f == Some(EndNotAfterStart) <==> !Disabled(d) && NotAfter(end, start))
            && (f == Some(StartBeforeToday) <==> !Disabled(d) && !NotAfter(end, start) && Before(start, todayMs))
            && (f == Some(BadNumberFormat) <==>
                  !Disabled(d) && !NotAfter(end, start) && !Before(start, todayMs) && !NumberPattern(d.numeroContrato))
            && (f.None? <==>
                  !Disabled(d) && !NotAfter(end, start) && !Before(start, todayMs)
                  && NumberPattern(d.numeroContrato) && 3 <= |d.numeroContrato| <= 20 && Truthy(userId))
  {
  }

  /** The button is disabled exactly when the first two checks would fail. */
  lemma DisabledIffEarlyFailure(d: Draft, parseDate: string -> Option<int>, todayMs: int, userId: Json)
    ensures Disabled(d) <==>
              FirstFailure(d, parseDate, todayMs, userId) in {Some(MissingFields), Some(NoServices)}
  {
  }

  lemma NumberCharIsPlain(c: char)
    requires NumberChar(c)
    ensures !JsText.IsSpace(c) && JsText.UpperChar(c) == c
  {
  }

  lemma NumberHasNoSpace(n: string)
    requires NumberPattern(n)
    ensures !JsText.HasSpace(n)
  {
    forall i | 0 <= i < |n|
      ensures !JsText.IsSpace(n[i])
    {
      NumberCharIsPlain(n[i]);
    }
  }

  lemma NumberIsUpper(n: string)
    requires NumberPattern(n)
    ensures JsText.Upper(n) == n
  {
    forall i | 0 <= i < |n|
      ensures JsText.UpperChar(n[i]) == n[i]
    {
      NumberCharIsPlain(n[i]);
    }
  }

  /** An accepted number is sent as typed: it has no space to trim and no
      lower-case letter to raise. */
  lemma {:induction false} AcceptedNumberUnchanged(n: string)
    requires NumberPattern(n)
    ensures JsText.Upper(JsText.Trim(n)) == n
  {
    NumberHasNoSpace(n);
    JsText.TrimWithoutSpace(n);
    NumberIsUpper(n);
  }

  /** What a draft that passed every check satisfies. */
  lemma PassedChecks(d: Draft, parseDate: string -> Option<int>, todayMs: int, userId: Json)
    requires FirstFailure(d, parseDate, todayMs, userId).None?
    ensures NumberPattern(d.numeroContrato) && 3 <= |d.numeroContrato| <= 20
    ensures Truthy(userId) && |d.serviciosIds| > 0
  {
  }

  /** A draft that passes every check with two valid dates is sent as
      typed: the same number, state and services, the converted dates and
      the user's id. */
  lemma {:induction false} SentPayload(d: Draft, parseDate: string -> Option<int>, todayMs: int, userId: Json,
                                       iso: int -> string, created: Completion<()>)
    requires FirstFailure(d, parseDate, todayMs, userId).None?
    requires parseDate(d.fechaInicio).Some? && parseDate(d.fechaFin).Some?
    ensures HandleSubmit(d, parseDate, todayMs, userId, iso, created).sent
            == Some(Payload(d.numeroContrato, iso(parseDate(d.fechaInicio).value), iso(parseDate(d.fechaFin).value),
                            d.estado, d.serviciosIds, userId))
  {
    PassedChecks(d, parseDate, todayMs, userId);
    BuildsAsTyped(d, parseDate, userId, iso);
  }

  /** A number in the pattern is built into the payload unchanged. */
  lemma BuildsAsTyped(d: Draft, parseDate: string -> Option<int>, userId: Json, iso: int -> string)
    requires NumberPattern(d.numeroContrato)
    requires parseDate(d.fechaInicio).Some? && parseDate(d.fechaFin).Some?
    ensures BuildPayload(d, parseDate, userId, iso)
            == Ok(Payload(d.numeroContrato, iso(parseDate(d.fechaInicio).value), iso(parseDate(d.fechaFin).value),
                          d.estado, d.serviciosIds, userId))
  {
    AcceptedNumberUnchanged(d.numeroContrato);
  }

  /** Unparseable dates pass both date checks and surface only when the
      payload is built, as `toISOString`'s error. */
  lemma InvalidDatesReachPayload(d: Draft, parseDate: string -> Option<int>, todayMs: int, userId: Json,
                                 iso: int -> string, created: Completion<()>)
    requires !Disabled(d) && NumberPattern(d.numeroContrato) && 3 <= |d.numeroContrato| <= 20 && Truthy(userId)
    requires parseDate(d.fechaInicio).None?
    ensures HandleSubmit(d, parseDate, todayMs, userId, iso, created) == Outcome(InvalidTime, None, None)
  {
  }

  /** A valid start date with an unparseable end date also passes both
      date checks and fails as `toISOString`'s error. */
  lemma InvalidEndReachesPayload(d: Draft, parseDate: string -> Option<int>, todayMs: int, userId: Json,
                                 iso: int -> string, created: Completion<()>)
    requires !Disabled(d) && NumberPattern(d.numeroContrato) && 3 <= |d.numeroContrato| <= 20 && Truthy(userId)
    requires parseDate(d.fechaInicio).Some? && parseDate(d.fechaInicio).value >= todayMs
    requires parseDate(d.fechaFin).None?
    ensures HandleSubmit(d, parseDate, todayMs, userId, iso, created) == Outcome(InvalidTime, None, None)
  {
  }

  /** The backend's validation list is shown entry by entry. */
  lemma ErrorWordingList(status: int, path: string, msg: string, own: string)
    requires path != "" && msg != ""
    ensures FormatError(JsError(own, Some(HttpResponse(status,
              JObj(map["errors" := JArr([JObj(map["path" := JStr(path), "msg" := JStr(msg)])])])))))
            == Some("Errores de validaci\U{00F3}n: " + path + ": " + msg)
  {
    var entry := JObj(map["path" := JStr(path), "msg" := JStr(msg)]);
    var text := path + ": " + msg;
    assert EntryText(entry) == Some(text);
    assert [entry][1..] == [];
    assert [text] + [] == [text];
    assert EntryTexts([entry]) == Some([text]);
    var head := "Errores de validaci\U{00F3}n: ";
    assert head + text == head + path + ": " + msg;
  }

  /** Without a validation list the body's message is shown, else the
      error's own message, else the default. */
  lemma ErrorWordingFallbacks(status: int, own: string, m: string)
    requires m != ""
    ensures FormatError(JsError(own, Some(HttpResponse(status, JObj(map["message" := JStr(m)])))))
            == Some(m)
    ensures FormatError(JsError(own, None)) == Some(if own != "" then own else CreateFallback)
  {
  }

  /** Without an array `errors` in the body, the text falls through the
      chain: the body's truthy `message`, then the error's own message,
      then "Error al crear contrato". */
  lemma ErrorWordingChain(err: JsError)
    requires var errs := OptMember(ResponseBody(err), "errors"); !(Truthy(errs) && errs.JArr?)
    ensures var m := OptMember(ResponseBody(err), "message");
            && (Truthy(m) ==> FormatError(err) == Some(ToText(m)))
            && (!Truthy(m) && err.message != "" ==> FormatError(err) == Some(err.message))
            && (!Truthy(m) && err.message == "" ==> FormatError(err) == Some(CreateFallback))
  {
  }

  /** A nullish entry in the list makes the formatting itself throw, so no
      message is set. */
  lemma ErrorWordingNullEntry(status: int, own: string)
    ensures FormatError(JsError(own, Some(HttpResponse(status, JObj(map["errors" := JArr([JNull])])))))
            == None
  {
    assert EntryTexts([JNull]) == None;
  }
}

=== FILE: contract_list.dfy ===
/** The contracts page (src/app/contratos/page.tsx): which cached
    contracts it lists for a search text and a state filter, the badge
    variant per state, and the empty-list wording. */
module ContractList {
  import opened Domain
  import opened StoreCore
  import opened JsValue
  import opened Prelude
  import JsText
  import Seqs
  import ContractStore

  /** The filter's value for "all states". */
  const All := "todos"

  /** The predicate `filteredContratos` keeps: the lower-cased number
      contains the lower-cased search text, and the state is the one
      chosen or the filter is "todos". */
  predicate Matches(c: Contract, search: string, filter: string) {
    JsText.Contains(JsText.Lower(c.numeroContrato), JsText.Lower(search))
    && (filter == All || EstadoName(c.estado) == filter)
  }

  function MatchesFor(search: string, filter: string): Contract -> bool {
    (c: Contract) => Matches(c, search, filter)
  }

  /** `filteredContratos`, over the array guard of the cache. */
  function Shown(cache: Cache<Contract>, search: string, filter: string): (r: seq<Contract>)
    ensures forall i :: 0 <= i < |r| ==> Matches(r[i], search, filter) && r[i] in Entries(cache)
    ensures forall i :: 0 <= i < |Entries(cache)| && Matches(Entries(cache)[i], search, filter) ==>
              Entries(cache)[i] in r
    ensures Seqs.IsSubsequence(r, Entries(cache))
    ensures multiset(r) <= multiset(Entries(cache))
    ensures forall i :: 0 <= i < |Entries(cache)| ==>
              multiset(r)[Entries(cache)[i]]
              == if Matches(Entries(cache)[i], search, filter) then multiset(Entries(cache))[Entries(cache)[i]] else 0
  {
    Seqs.FilterIsSubsequence(Entries(cache), MatchesFor(search, filter));
    Seqs.FilterMultiset(Entries(cache), MatchesFor(search, filter));
    Seqs.Filter(Entries(cache), MatchesFor(search, filter))
  }

  /** `getEstadoColor`. */
  function EstadoColor(estado: string): string {
    if estado == "Activo" then "default"
    else if estado == "Inactivo" then "secondary"
    else if estado == "Pendiente" then "outline"
    else "secondary"
  }

  /** The heading of the empty list. */
  function EmptyTitle(search: string, filter: string): string {
    if search != "" || filter != All then "No se encontraron contratos" else "No hay contratos"
  }

  /** What the page shows: the spinner while the store loads, else the
      filtered list and the empty-list heading. */
  datatype View = Loading | Listed(shown: seq<Contract>, emptyTitle: string)

  function Page(s: ContractStore.State, search: string, filter: string): (v: View)
    ensures v.Loading? <==> s.isLoading
    ensures v.Listed? ==> v.shown == Shown(s.cache, search, filter)
  {
    if s.isLoading then Loading else Listed(Shown(s.cache, search, filter), EmptyTitle(search, filter))
  }

  const DeleteAlert := "Error al eliminar el contrato"

  /** `handleDelete(id)`: ask, delete, then reload the list; a failed
      delete raises an alert. `confirmed` is the dialog's answer and
      `refetched` the outcome of the reload, whose errors `fetchContratos`
      absorbs itself. */
  function HandleDelete(s: ContractStore.State, id: string, confirmed: bool,
                        removed: Completion<()>, refetched: Completion<Listing>)
    : (r: (ContractStore.State, Option<string>))
    ensures !confirmed ==> r == (s, None)
    ensures confirmed ==> !r.0.isLoading
    ensures r.1.Some? <==> confirmed && (removed.Threw? || s.cache.Fetched?)
    ensures r.1.Some? ==> r.1.value == DeleteAlert && r.0.cache == s.cache
    ensures confirmed && removed.Threw? ==>
              r.0.error == Some(MessageOr(removed.error, ContractStore.DeleteFallback))
    ensures confirmed && r.1.None? && refetched.Threw? ==>
              forall i :: 0 <= i < |Entries(r.0.cache)| ==> Entries(r.0.cache)[i].id != id
  {
    if !confirmed then (s, None)
    else
      var step := ContractStore.DeleteContrato(s, id, removed);
      match step.outcome
      case Threw(_) => (step.store, Some(DeleteAlert))
      case Returned(_) => (ContractStore.FetchContratos(step.store, refetched), None)
  }

  // ---------------------------------------------------------------------

  /** The empty text occurs everywhere. */
  lemma ContainsEmpty(s: string)
    ensures JsText.Contains(s, "")
  {
    assert JsText.OccursAt(s, "", 0);
  }

  /** With no search text and "todos" the page lists the whole cached array. */
  lemma NoFilterShowsAll(cache: Cache<Contract>)
    ensures Shown(cache, "", All) == Entries(cache)
  {
    forall c ensures MatchesFor("", All)(c) {
      ContainsEmpty(JsText.Lower(c.numeroContrato));
      assert JsText.Lower("") == "";
    }
    Seqs.FilterKeepsAll(Entries(cache), MatchesFor("", All));
  }

  /** Once a fetch has stored its record, nothing is listed whatever the
      filters. */
  lemma FetchedCacheListsNothing(l: Listing, search: string, filter: string)
    ensures Shown(Fetched(l), search, filter) == []
  {
  }

  /** Every state the type allows gets "default" or "secondary"; the
      "outline" branch is for a state that does not exist. */
  lemma EstadoColors(e: Estado)
    ensures EstadoColor(EstadoName(e)) == (if e == Activo then "default" else "secondary")
    ensures EstadoColor(EstadoName(e)) != "outline"
  {
  }

  /** Search is case-insensitive on ASCII letters. */
  lemma SearchIgnoresCase(c: Contract, search: string, filter: string)
    ensures Matches(c, JsText.Upper(search), filter) == Matches(c, JsText.Lower(search), filter)
  {
    assert JsText.Lower(JsText.Upper(search)) == JsText.Lower(JsText.Lower(search)) by {
      forall i | 0 <= i < |search|
        ensures JsText.LowerChar(JsText.UpperChar(search[i])) == JsText.LowerChar(JsText.LowerChar(search[i]))
      {
      }
    }
  }

  /** A confirmed delete that the backend accepts, followed by a reload the
      backend answers, leaves a page that lists nothing. */
  lemma DeleteThenReloadListsNothing(s: ContractStore.State, id: string, l: Listing,
                                     search: string, filter: string)
    requires s.cache.Items?
    ensures var r := HandleDelete(s, id, true, Returned(()), Returned(l));
            r.1.None? && Page(r.0, search, filter) == Listed([], EmptyTitle(search, filter))
  {
  }

  /** The empty list reads "No hay contratos" exactly when neither a search
      text nor a state narrows it. */
  lemma EmptyTitleWording(search: string, filter: string)
    ensures EmptyTitle(search, filter) == "No hay contratos" <==> search == "" && filter == All
    ensures EmptyTitle(search, filter) in {"No hay contratos", "No se encontraron contratos"}
  {
  }
}

=== FILE: contract_service.dfy ===
/** The contract domain service (src/services/contratoSevice.ts): the URL
    each operation requests and how the response body becomes its result.
    Transport errors from the HTTP client are rethrown unchanged. */
module ContractService {
  import opened Prelude
  import opened JsValue
  import opened Domain
  import opened Query

  /** `getContratos`: the URL requested. */
  function ListUrl(p: ListParams, encode: string -> string): string {
    WithQuery("/contracts", QueryPairs("estado", p), encode)
  }

  /** `getContratos`: the list is `data.data?.contracts || data.data || []`
      and the pagination `data.data?.pagination` or the default block; a
      nullish body makes `data.data` throw. */
  function ListResult(response: Completion<HttpResponse>): (r: Completion<Listing>)
    ensures response.Threw? ==> r == Threw(response.error)
    ensures response.Returned? && Nullish(response.value.data) ==> r == Threw(TypeErrorValue)
    ensures response.Returned? && !Nullish(response.value.data) ==>
              var d := OptMember(response.value.data, "data");
              && r.Returned?
              && (Truthy(OptMember(d, "contracts")) ==> r.value.items == OptMember(d, "contracts"))
              && (!Truthy(OptMember(d, "contracts")) && Truthy(d) ==> r.value.items == d)
              && (!Truthy(OptMember(d, "contracts")) && !Truthy(d) ==> r.value.items == JArr([]))
              && (Truthy(OptMember(d, "pagination")) ==> r.value.pagination == OptMember(d, "pagination"))
              && (!Truthy(OptMember(d, "pagination")) ==> r.value.pagination == DefaultPagination(JNum(0)))
  {
    match response
    case Threw(e) => Threw(e)
    case Returned(res) =>
      match Member(res.data, "data")
      case None => Threw(TypeErrorValue)
      case Some(d) =>
        Returned(Listing(
          Or(Or(OptMember(d, "contracts"), d), JArr([])),
          Or(OptMember(d, "pagination"), DefaultPagination(JNum(0)))))
  }

  /** `getContratoById`, `createContrato`, `updateContrato`: the body's
      `data`, read without looking at `success`. */
  function RecordResult(response: Completion<HttpResponse>): (r: Completion<Json>)
    ensures response.Threw? ==> r == Threw(response.error)
    ensures response.Returned? ==>
              (r.Returned? <==> !Nullish(response.value.data))
              && (r.Returned? ==> r.value == OptMember(response.value.data, "data"))
              && (r.Threw? ==> r.error == TypeErrorValue)
  {
    match response
    case Threw(e) => Threw(e)
    case Returned(res) =>
      match Member(res.data, "data")
      case None => Threw(TypeErrorValue)
      case Some(d) => Returned(d)
  }

  /** `getContratoById`: the URL requested, asking for hydrated services. */
  function ByIdUrl(id: string): (r: string)
    ensures r == "/contracts/" + id + "?populate=servicios"
  {
    "/contracts/" + id + "?populate=servicios"
  }

  /** `updateContrato` and `deleteContrato`: the URL requested. */
  function ItemUrl(id: string): string {
    "/contracts/" + id
  }

  /** `deleteContrato` and `deleteServicio`: resolve with nothing or rethrow. */
  function DeleteResult(response: Completion<HttpResponse>): (r: Completion<()>)
    ensures r.Threw? <==> response.Threw?
    ensures response.Threw? ==> r == Threw(response.error)
  {
    match response
    case Threw(e) => Threw(e)
    case Returned(_) => Returned(())
  }

  /** `getContratosByEstado(estado, params)`: `getContratos({ estado, ...params })`. */
  function ByEstadoParams(estado: string, p: PageParams): (r: ListParams)
    ensures r.filter == Some(estado) && r.page == p.page && r.limit == p.limit
  {
    ListParams(Some(estado), p.page, p.limit)
  }

  /** The backend's documented envelope. */
  function Envelope(contracts: seq<Json>, pagination: Json): Json {
    JObj(map["success" := JBool(true),
             "data" := JObj(map["contracts" := JArr(contracts), "pagination" := pagination])])
  }

  /** The documented envelope is read back exactly, an empty `contracts`
      array included. */
  lemma EnvelopeRoundTrip(contracts: seq<Json>, pagination: Json, status: int)
    requires Truthy(pagination)
    ensures ListResult(Returned(HttpResponse(status, Envelope(contracts, pagination))))
            == Returned(Listing(JArr(contracts), pagination))
  {
  }

  /** A body whose `data` is an object without `contracts` yields that
      object itself as the "list", which is not an array; a missing or null
      `data` yields `[]` and the default block. */
  lemma MalformedBodies(status: int, m: map<string, Json>)
    requires "contracts" !in m && "pagination" !in m
    ensures ListResult(Returned(HttpResponse(status, JObj(map["data" := JObj(m)]))))
            == Returned(Listing(JObj(m), DefaultPagination(JNum(0))))
    ensures ListResult(Returned(HttpResponse(status, JObj(map["data" := JNull]))))
            == Returned(Listing(JArr([]), DefaultPagination(JNum(0))))
    ensures ListResult(Returned(HttpResponse(status, JObj(map[]))))
            == Returned(Listing(JArr([]), DefaultPagination(JNum(0))))
  {
  }

  /** `getContratoById` returns `data` even when `success` is false. */
  lemma RecordIgnoresSuccess(status: int, d: Json, flag: Json)
    ensures RecordResult(Returned(HttpResponse(status, JObj(map["success" := flag, "data" := d]))))
            == Returned(d)
  {
  }

  /** The by-state URL is the list URL with `estado` first. */
  lemma ByEstadoUrl(estado: string, p: PageParams, encode: string -> string)
    requires estado != ""
    ensures QueryPairs("estado", ByEstadoParams(estado, p))[0] == ("estado", estado)
    ensures ListUrl(ByEstadoParams(estado, p), encode)[..12] == "/contracts?e"
  {
    var pairs := QueryPairs("estado", ByEstadoParams(estado, p));
    QuestionMarkIffParams("/contracts", "estado", ByEstadoParams(estado, p), encode);
    var items := seq(|pairs|, i requires 0 <= i < |pairs| => pairs[i].0 + "=" + encode(pairs[i].1));
    JoinStartsWithFirst(items, "&");
    var url := ListUrl(ByEstadoParams(estado, p), encode);
    assert url == "/contracts" + "?" + Serialize(pairs, encode);
  }
}

=== FILE: contract_store.dfy ===
/** The contract store (src/store/contratoStore.ts): the shared store
    behaviour instantiated for contracts, keyed by `_id`, with the store's
    own fallback messages. */
module ContractStore {
  import opened Prelude
  import opened JsValue
  import opened Domain
  import opened StoreCore
  import Seqs

  type State = Store<Contract>

  const FetchFallback := "Error al cargar contratos"
  const GetByIdFallback := "Error al obtener contrato"
  const CreateFallback := "Error al crear contrato"
  const UpdateFallback := "Error al actualizar contrato"
  const DeleteFallback := "Error al eliminar contrato"
  const ByEstadoFallback := "Error al obtener contratos por estado"
  /** The literal as it is spelled in the source file. */
  const ExpiringFallback := "Error al obtener contratos prÃ³ximos a vencer"

  /** `fetchContratos`: success stores the service's `{contratos, pagination}`
      record, so the views' array guard then sees no contracts; failure keeps
      the cache and does not rethrow. */
  function FetchContratos(s: State, call: Completion<Listing>): (r: State)
    ensures !r.isLoading
    ensures call.Returned? ==> r.cache == Fetched(call.value) && r.error.None? && Entries(r.cache) == []
    ensures call.Threw? ==> r.cache == s.cache
    ensures call.Threw? && call.error.message == "" ==> r.error == Some(FetchFallback)
    ensures call.Threw? && call.error.message != "" ==> r.error == Some(call.error.message)
  {
    Fetch(s, call, FetchFallback)
  }

  /** `getContratoById`: returns the service's contract, rethrows its error,
      never touches the cache. */
  function GetContratoById(s: State, call: Completion<Contract>): (r: Step<Contract, Contract>)
    ensures r.store.cache == s.cache && !r.store.isLoading && r.outcome == call
    ensures call.Threw? ==> r.store.error == Some(MessageOr(call.error, GetByIdFallback))
    ensures call.Returned? ==> r.store.error.None?
  {
    Read(s, call, GetByIdFallback)
  }

  /** `createContrato`: on success the created contract is appended after
      every cached one, which keep their order. */
  function CreateContrato(s: State, call: Completion<Contract>): (r: Step<Contract, ()>)
    ensures !r.store.isLoading
    ensures call.Returned? && s.cache.Items? ==>
              r.outcome.Returned? && r.store.error.None?
              && |Entries(r.store.cache)| == |s.cache.entries| + 1
              && Entries(r.store.cache)[..|s.cache.entries|] == s.cache.entries
              && Entries(r.store.cache)[|s.cache.entries|] == call.value
    ensures call.Threw? ==>
              r.outcome == Threw(call.error) && r.store.cache == s.cache
              && r.store.error == Some(MessageOr(call.error, CreateFallback))
  {
    Create(s, call, CreateFallback)
  }

  /** `updateContrato`: on success every cached contract with that `_id` is
      the returned one; the others, the length and the order are kept. */
  function UpdateContrato(s: State, id: string, call: Completion<Contract>): (r: Step<Contract, ()>)
    ensures !r.store.isLoading
    ensures call.Returned? && s.cache.Items? ==>
              r.outcome.Returned? && r.store.error.None?
              && |Entries(r.store.cache)| == |s.cache.entries|
              && forall i :: 0 <= i < |s.cache.entries| ==>
                   Entries(r.store.cache)[i]
                   == (if s.cache.entries[i].id == id then call.value else s.cache.entries[i])
    ensures call.Threw? ==>
              r.outcome == Threw(call.error) && r.store.cache == s.cache
              && r.store.error == Some(MessageOr(call.error, UpdateFallback))
  {
    Update(s, ContractKey, id, call, UpdateFallback)
  }

  /** `deleteContrato`: on success exactly the contracts with that `_id` are
      gone and the rest keep their order. */
  function DeleteContrato(s: State, id: string, call: Completion<()>): (r: Step<Contract, ()>)
    ensures !r.store.isLoading
    ensures call.Returned? && s.cache.Items? ==>
              r.outcome.Returned? && r.store.error.None?
              && (forall i :: 0 <= i < |Entries(r.store.cache)| ==>
                    Entries(r.store.cache)[i].id != id && Entries(r.store.cache)[i] in s.cache.entries)
              && (forall i :: 0 <= i < |s.cache.entries| && s.cache.entries[i].id != id ==>
                    s.cache.entries[i] in Entries(r.store.cache))
              && Seqs.IsSubsequence(Entries(r.store.cache), s.cache.entries)
              && r.store.cache == Items(RemoveWhere(s.cache.entries, ContractKey, id))
    ensures call.Threw? ==>
              r.outcome == Threw(call.error) && r.store.cache == s.cache
              && r.store.error == Some(MessageOr(call.error, DeleteFallback))
  {
    Delete(s, ContractKey, id, call, DeleteFallback)
  }

  /** `getContratosByEstado`: a pass-through read. */
  function GetContratosByEstado(s: State, call: Completion<Listing>): (r: Step<Contract, Listing>)
    ensures r.store.cache == s.cache && !r.store.isLoading && r.outcome == call
    ensures call.Threw? ==> r.store.error == Some(MessageOr(call.error, ByEstadoFallback))
  {
    Read(s, call, ByEstadoFallback)
  }

  /** `getContratosProximosAVencer` calls a service method that does not
      exist, so it always records and rethrows a TypeError. */
  function GetContratosProximosAVencer(s: State): (r: Step<Contract, Listing>)
    ensures r.store.cache == s.cache && !r.store.isLoading
    ensures r.outcome == Threw(TypeErrorValue) && r.store.error == Some(TypeErrorText)
  {
    Read(s, Threw(TypeErrorValue), ExpiringFallback)
  }

  /** `clearError`. */
  function ClearContratoError(s: State): (r: State)
    ensures r == s.(error := None)
  {
    ClearError(s)
  }

  /** Updating with the record the backend patched (say to `Suspendido`)
      leaves that record under its id and every other contract as it was. */
  lemma UpdateThenLookUp(s: State, id: string, patched: Contract, i: int)
    requires s.cache.Items? && patched.id == id
    requires 0 <= i < |s.cache.entries|
    ensures var after := Entries(UpdateContrato(s, id, Returned(patched)).store.cache);
            && (s.cache.entries[i].id == id ==> after[i] == patched && after[i].estado == patched.estado)
            && (s.cache.entries[i].id != id ==> after[i] == s.cache.entries[i])
  {
  }

  /** The delete action applied twice removes nothing the second time. */
  lemma DeleteContratoTwice(s: State, id: string)
    requires s.cache.Items?
    ensures var once := DeleteContrato(s, id, Returned(())).store;
            DeleteContrato(once, id, Returned(())).store == once
  {
    DeleteTwice(s, ContractKey, id, DeleteFallback);
  }
}

=== FILE: dashboard.dfy ===
/** The dashboard (src/app/dashboard/page.tsx): what it fetches on mount
    and the figures and recent contracts it shows from the two stores. */
module Dashboard {
  import opened JsValue
  import opened Domain
  import opened StoreCore
  import opened Prelude
  import AuthSession
  import Stats
  import ContractStore

  /** The fetches the mount effect starts: both lists, only when signed in. */
  function MountFetches(isAuthenticated: bool): (r: seq<string>)
    ensures r != [] <==> isAuthenticated
  {
    if isAuthenticated then ["fetchContratos", "fetchServicios"] else []
  }

  /** What the page shows. */
  datatype View =
    | Loading
    | Overview(greeting: string, total: nat, active: nat, services: nat, recent: seq<Contract>)

  function Min(a: int, b: int): int {
    if a < b then a else b
  }

  /** The page for the two stores and the signed-in user. */
  function Render(contracts: Store<Contract>, services: Store<Service>,
                  user: Option<AuthSession.User>): (v: View)
    ensures v.Loading? <==> contracts.isLoading || services.isLoading
    ensures v.Overview? ==>
              var cs := Entries(contracts.cache);
              && v.total == |cs| && v.active == Stats.Activos(cs) && v.active <= v.total
              && v.services == |Entries(services.cache)|
              && |v.recent| == Min(3, |cs|) && v.recent == cs[..|v.recent|]
  {
    if contracts.isLoading || services.isLoading then Loading
    else
      var cs := Entries(contracts.cache);
      var name := match user case Some(u) => u.nombre case None => JUndefined;
      Overview(ToText(Or(name, JStr("Usuario"))), |cs|, Stats.Activos(cs), |Entries(services.cache)|,
               cs[..Min(3, |cs|)])
  }

  // ---------------------------------------------------------------------

  /** After a successful contract fetch the dashboard counts no contracts
      and lists none, whatever the backend returned. */
  lemma FetchedDashboardIsEmpty(s: Store<Contract>, l: Listing, services: Store<Service>,
                                user: Option<AuthSession.User>)
    requires !services.isLoading
    ensures var v := Render(ContractStore.FetchContratos(s, Returned(l)), services, user);
            v.Overview? && v.total == 0 && v.active == 0 && v.recent == []
  {
  }

  /** Without a name the greeting reads "Usuario". */
  lemma GreetingFallback(contracts: Store<Contract>, services: Store<Service>)
    requires !contracts.isLoading && !services.isLoading
    ensures Render(contracts, services, None).greeting == "Usuario"
  {
  }
}

=== FILE: domain.dfy ===
/** The records the application exchanges with its backend (src/types/index.ts):
    contracts, catalog services and a paginated listing. */
module Domain {
  import opened JsValue

  /** The four contract states. */
  datatype Estado = Activo | Inactivo | Suspendido | Cancelado

  /** The string the backend and the views use for a state. */
  function EstadoName(e: Estado): string {
    match e
    case Activo => "Activo"
    case Inactivo => "Inactivo"
    case Suspendido => "Suspendido"
    case Cancelado => "Cancelado"
  }

  /** A contract as the views read it. The type file names the number
      `numero`; the creation page sends and the list views read
      `numeroContrato`, so both fields are kept and each operation reads
      the one the source reads. Dates are the backend's strings. */
  datatype Contract = Contract(
    id: string,
    numero: string,
    numeroContrato: string,
    fechaInicio: string,
    fechaFin: string,
    estado: Estado,
    usuarioId: string,
    serviciosIds: seq<string>)

  /** A catalog service. */
  datatype Service = Service(
    id: string,
    nombre: string,
    descripcion: string,
    precio: real,
    tipo: string)

  function ContractKey(c: Contract): string {
    c.id
  }

  function ServiceKey(s: Service): string {
    s.id
  }

  /** What the list operations of the domain services return: the record
      `{ contratos | servicios, pagination }`, both parts as the backend
      sent them. */
  datatype Listing = Listing(items: Json, pagination: Json)
}

=== FILE: js_text.dfy ===
/** The JavaScript string operations the application relies on:
    `trim`, `toUpperCase`/`toLowerCase` (ASCII letters), `startsWith`,
    `includes`, `indexOf`, `split` and `join`. A Dafny `char` is a Unicode
    scalar value, whereas JavaScript strings and their `.length` count
    UTF-16 code units; the two agree on text inside the Basic
    Multilingual Plane. */
module JsText {
  import opened Prelude

  /** The characters `String.prototype.trim` strips and the regular
      expression class `\s` matches: ECMAScript WhiteSpace and LineTerminator. */
  predicate IsSpace(c: char) {
    || c == '\t' || c == '\n' || c == '\U{000B}' || c == '\U{000C}' || c == '\r'
    || c == ' ' || c == '\U{00A0}' || c == '\U{1680}'
    || ('\U{2000}' <= c <= '\U{200A}')
    || c == '\U{2028}' || c == '\U{2029}' || c == '\U{202F}' || c == '\U{205F}'
    || c == '\U{3000}' || c == '\U{FEFF}'
  }

  predicate HasSpace(s: string) {
    exists i :: 0 <= i < |s| && IsSpace(s[i])
  }

  function TrimStart(s: string): (r: string)
    ensures |r| <= |s|
    ensures r == s[|s| - |r|..]
    ensures |r| > 0 ==> !IsSpace(r[0])
  {
    if |s| > 0 && IsSpace(s[0]) then TrimStart(s[1..]) else s
  }

  function TrimEnd(s: string): (r: string)
    ensures |r| <= |s|
    ensures r == s[..|r|]
    ensures |r| > 0 ==> !IsSpace(r[|r| - 1])
  {
    if |s| > 0 && IsSpace(s[|s| - 1]) then TrimEnd(s[..|s| - 1]) else s
  }

  /** `s.trim()`: a contiguous piece of `s` with no space at either end. */
  function Trim(s: string): (r: string)
    ensures |r| <= |s|
    ensures exists k :: OccursAt(s, r, k)
    ensures |r| > 0 ==> !IsSpace(r[0]) && !IsSpace(r[|r| - 1])
  {
    var t := TrimStart(s);
    var r := TrimEnd(t);
    assert r == s[|s| - |t|..][..|r|] == s[|s| - |t|..|s| - |t| + |r|];
    assert OccursAt(s, r, |s| - |t|);
    r
  }

  /** A string that contains no space character trims to itself. */
  lemma {:induction false} TrimWithoutSpace(s: string)
    requires !HasSpace(s)
    ensures Trim(s) == s
  {
    if |s| > 0 {
      assert !IsSpace(s[0]);
      assert !IsSpace(s[|s| - 1]);
    }
  }

  /** Trimming twice is trimming once. */
  lemma TrimIdempotent(s: string)
    ensures Trim(Trim(s)) == Trim(s)
  {
    var r := Trim(s);
    if |r| > 0 {
      assert TrimStart(r) == r;
      assert TrimEnd(r) == r;
    }
  }

  function UpperChar(c: char): char {
    if 'a' <= c <= 'z' then (c as int - 'a' as int + 'A' as int) as char else c
  }

  function LowerChar(c: char): char {
    if 'A' <= c <= 'Z' then (c as int - 'A' as int + 'a' as int) as char else c
  }

  /** `s.toUpperCase()` on ASCII letters. */
  function Upper(s: string): (r: string)
    ensures |r| == |s|
    ensures forall i :: 0 <= i < |s| ==> r[i] == UpperChar(s[i])
  {
    seq(|s|, i requires 0 <= i < |s| => UpperChar(s[i]))
  }

  /** `s.toLowerCase()` on ASCII letters. */
  function Lower(s: string): (r: string)
    ensures |r| == |s|
    ensures forall i :: 0 <= i < |s| ==> r[i] == LowerChar(s[i])
  {
    seq(|s|, i requires 0 <= i < |s| => LowerChar(s[i]))
  }

  predicate StartsWith(s: string, prefix: string) {
    |prefix| <= |s| && s[..|prefix|] == prefix
  }

  /** `p` occurs in `s` starting at index `j`. */
  predicate OccursAt(s: string, p: string, j: int) {
    0 <= j && j + |p| <= |s| && s[j..j + |p|] == p
  }

  /** The first occurrence of `p` in `s` at or after index `k`. */
  function IndexFrom(s: string, p: string, k: nat): (r: Option<nat>)
    ensures r.Some? ==> k <= r.value && OccursAt(s, p, r.value)
    ensures r.Some? ==> forall j :: k <= j < r.value ==> !OccursAt(s, p, j)
    ensures r.None? ==> forall j :: k <= j ==> !OccursAt(s, p, j)
    decreases |s| + 1 - k
  {
    if k + |p| > |s| then None
    else if s[k..k + |p|] == p then Some(k)
    else IndexFrom(s, p, k + 1)
  }

  /** `s.indexOf(p)`, with None for -1. */
  function IndexOf(s: string, p: string): (r: Option<nat>)
    ensures r.Some? ==> OccursAt(s, p, r.value)
    ensures r.Some? ==> forall j :: 0 <= j < r.value ==> !OccursAt(s, p, j)
    ensures r.None? ==> forall j :: 0 <= j ==> !OccursAt(s, p, j)
  {
    IndexFrom(s, p, 0)
  }

  /** `s.includes(p)`. */
  predicate Contains(s: string, p: string) {
    IndexOf(s, p).Some?
  }

  /** `s.split(sep)` for a non-empty separator: the pieces between the
      non-overlapping occurrences of `sep`, found left to right. */
  function Split(s: string, sep: string): (parts: seq<string>)
    requires |sep| > 0
    ensures |parts| >= 1
    decreases |s|
  {
    match IndexOf(s, sep)
    case None => [s]
    case Some(i) => [s[..i]] + Split(s[i + |sep|..], sep)
  }

  /** A one-character occurrence is just that character. */
  lemma OccursAtChar(s: string, c: char, j: int)
    requires 0 <= j < |s|
    ensures OccursAt(s, [c], j) <==> s[j] == c
  {
    if s[j] == c {
      assert s[j..j + 1] == [c];
    }
  }

  /** The first piece of a split on one character never contains it. */
  lemma FirstPieceLacksSeparator(s: string, c: char)
    ensures c !in Split(s, [c])[0]
  {
    var first := Split(s, [c])[0];
    forall j | 0 <= j < |first|
      ensures first[j] != c
    {
      OccursAtChar(s, c, j);
    }
  }

  function Join(parts: seq<string>, sep: string): string {
    if |parts| == 0 then ""
    else if |parts| == 1 then parts[0]
    else parts[0] + sep + Join(parts[1..], sep)
  }
}

=== FILE: js_value.dfy ===
/** JavaScript values as they arrive in response bodies, with the three
    things the application does to them: test truthiness (`if (x)`,
    `a || b`), read a property (`x.k`, `x?.k`) and convert to a string
    (template literals, `new Error(x)`). Errors thrown by calls and the
    completion of a call are defined here too. */
module JsValue {
  import opened Prelude
  import JsText

  /** A JSON value, plus `undefined`, which a missing property reads as.
      Numbers are integers. */
  datatype Json =
    | JUndefined
    | JNull
    | JBool(b: bool)
    | JNum(n: int)
    | JStr(s: string)
    | JArr(items: seq<Json>)
    | JObj(fields: map<string, Json>)

  /** JavaScript truthiness: `[]` and `{}` are truthy. */
  predicate Truthy(v: Json) {
    match v
    case JUndefined => false
    case JNull => false
    case JBool(b) => b
    case JNum(n) => n != 0
    case JStr(s) => s != ""
    case JArr(_) => true
    case JObj(_) => true
  }

  predicate Nullish(v: Json) {
    v.JUndefined? || v.JNull?
  }

  /** `v.k`: None stands for the TypeError thrown when `v` is null or
      undefined. Non-object values read undefined for every key the
      application uses. */
  function Member(v: Json, k: string): Option<Json> {
    match v
    case JUndefined => None
    case JNull => None
    case JObj(m) => Some(if k in m then m[k] else JUndefined)
    case _ => Some(JUndefined)
  }

  /** `v?.k`: undefined instead of a TypeError on a nullish `v`. */
  function OptMember(v: Json, k: string): Json {
    Member(v, k).GetOr(JUndefined)
  }

  /** `a || b`. */
  function Or(a: Json, b: Json): Json {
    if Truthy(a) then a else b
  }

  function DigitChar(d: int): char
    requires 0 <= d < 10
  {
    "0123456789"[d]
  }

  function NatToString(n: nat): string
    decreases n
  {
    if n < 10 then [DigitChar(n)] else NatToString(n / 10) + [DigitChar(n % 10)]
  }

  /** `n.toString()` for an integer. */
  function IntToString(n: int): string {
    if n < 0 then "-" + NatToString(-n) else NatToString(n)
  }

  /** `String(v)`: arrays join their elements with "," (null and undefined
      elements become empty), every object is "[object Object]". */
  function ToText(v: Json): string
    decreases v
  {
    match v
    case JUndefined => "undefined"
    case JNull => "null"
    case JBool(b) => if b then "true" else "false"
    case JNum(n) => IntToString(n)
    case JStr(s) => s
    case JObj(_) => "[object Object]"
    case JArr(items) =>
      JsText.Join(seq(|items|, i requires 0 <= i < |items| =>
        if Nullish(items[i]) then "" else ToText(items[i])), ",")
  }

  /** An HTTP response as the client library hands it over: the status and
      the parsed body (`response.data`). */
  datatype HttpResponse = HttpResponse(status: int, data: Json)

  /** A thrown error: its `message` ("" when empty or missing) and, for
      errors raised by the HTTP client, the `response` it carries. */
  datatype JsError = JsError(message: string, response: Option<HttpResponse>)

  /** How an awaited call completes: with a value or by throwing. */
  datatype Completion<+T> = Returned(value: T) | Threw(error: JsError)

  /** Stands for the message of a TypeError raised by the engine (reading a
      property of null, spreading a non-iterable, calling a missing
      method). Its wording is engine-specific; the model relies only on it
      being non-empty. */
  const TypeErrorText: string := "TypeError"

  /** The TypeError the engine throws; it carries no response. */
  const TypeErrorValue: JsError := JsError(TypeErrorText, None)

  /** `new Error(message)`. */
  function PlainError(message: string): JsError {
    JsError(message, None)
  }

  /** `error.message || fallback`. */
  function MessageOr(e: JsError, fallback: string): string {
    if e.message != "" then e.message else fallback
  }

  /** `error.response?.data`. */
  function ResponseBody(e: JsError): Json {
    match e.response
    case Some(r) => r.data
    case None => JUndefined
  }

  /** `error.response?.status`. */
  function ResponseStatus(e: JsError): Option<int> {
    match e.response
    case Some(r) => Some(r.status)
    case None => None
  }

  /** `a || b` keeps its left operand exactly when that operand is truthy,
      and the result is truthy when either operand is. */
  lemma OrLaws(a: Json, b: Json)
    ensures Truthy(a) ==> Or(a, b) == a
    ensures !Truthy(a) ==> Or(a, b) == b
    ensures Truthy(Or(a, b)) <==> Truthy(a) || Truthy(b)
  {
  }

  /** `NatToString` writes only digits, and a single digit reads as itself. */
  lemma {:induction false} NatToStringDigits(n: nat)
    ensures |NatToString(n)| >= 1
    ensures forall i :: 0 <= i < |NatToString(n)| ==> '0' <= NatToString(n)[i] <= '9'
    decreases n
  {
    if n >= 10 {
      NatToStringDigits(n / 10);
    }
  }
}

=== FILE: prelude.dfy ===
/** Option and Result, the two wrappers every other module uses. */
module Prelude {

  /** A value that may be missing: `null`/`undefined` in the source. */
  datatype Option<+T> = None | Some(value: T) {

    /** The wrapped value, or `default` when there is none. */
    function GetOr(default: T): T {
      match this
      case Some(v) => v
      case None => default
    }
  }

  /** The outcome of a step that either yields a value or fails with a message. */
  datatype Result<+T, +E> = Ok(value: T) | Err(error: E)
}

=== FILE: query.dfy ===
/** Query strings as both domain services build them with
    `URLSearchParams`: one filter parameter, then `page`, then `limit`,
    each appended only when truthy, and no `?` when none was appended.
    Percent-encoding of values is the `encode` parameter. */
module Query {
  import opened Prelude
  import opened JsValue
  import JsText
  import Seqs

  /** `{ <filter>?: string, page?: number, limit?: number }`; a missing
      parameter object reads as all-missing. */
  datatype ListParams = ListParams(filter: Option<string>, page: Option<int>, limit: Option<int>)

  /** `{ page?: number, limit?: number }`, the extra argument of the
      by-state and by-type variants. */
  datatype PageParams = PageParams(page: Option<int>, limit: Option<int>)

  const NoParams := ListParams(None, None, None)

  predicate TextGiven(v: Option<string>) {
    v.Some? && v.value != ""
  }

  predicate NumberGiven(v: Option<int>) {
    v.Some? && v.value != 0
  }

  /** The pairs appended to the `URLSearchParams`, in order. */
  function QueryPairs(filterKey: string, p: ListParams): (r: seq<(string, string)>)
    ensures |r| <= 3
  {
    (if TextGiven(p.filter) then [(filterKey, p.filter.value)] else [])
    + (if NumberGiven(p.page) then [("page", IntToString(p.page.value))] else [])
    + (if NumberGiven(p.limit) then [("limit", IntToString(p.limit.value))] else [])
  }

  function Keys(pairs: seq<(string, string)>): (r: seq<string>)
    ensures |r| == |pairs|
    ensures forall i :: 0 <= i < |pairs| ==> r[i] == pairs[i].0
  {
    seq(|pairs|, i requires 0 <= i < |pairs| => pairs[i].0)
  }

  /** `URLSearchParams.toString()`. */
  function Serialize(pairs: seq<(string, string)>, encode: string -> string): string {
    JsText.Join(seq(|pairs|, i requires 0 <= i < |pairs| => pairs[i].0 + "=" + encode(pairs[i].1)), "&")
  }

  /** `${path}${qs ? `?${qs}` : ''}`. */
  function WithQuery(path: string, pairs: seq<(string, string)>, encode: string -> string): string {
    var qs := Serialize(pairs, encode);
    path + (if qs != "" then "?" + qs else "")
  }

  /** The parameters present are exactly the truthy ones, they come in the
      fixed order filter, page, limit, and each carries its value. */
  lemma QueryPairsSpec(filterKey: string, p: ListParams)
    requires filterKey != "page" && filterKey != "limit"
    ensures var ks := Keys(QueryPairs(filterKey, p));
            && Seqs.IsSubsequence(ks, [filterKey, "page", "limit"])
            && (filterKey in ks <==> TextGiven(p.filter))
            && ("page" in ks <==> NumberGiven(p.page))
            && ("limit" in ks <==> NumberGiven(p.limit))
    ensures TextGiven(p.filter) ==> QueryPairs(filterKey, p)[0] == (filterKey, p.filter.value)
    ensures !TextGiven(p.filter) && NumberGiven(p.page) ==>
              QueryPairs(filterKey, p)[0] == ("page", IntToString(p.page.value))
  {
    var ks := Keys(QueryPairs(filterKey, p));
    var all := [filterKey, "page", "limit"];
    var f := TextGiven(p.filter);
    var g := NumberGiven(p.page);
    var h := NumberGiven(p.limit);
    assert ks == (if f then [filterKey] else []) + (if g then ["page"] else []) + (if h then ["limit"] else []);
    assert Seqs.IsSubsequence(ks, all) by {
      var tail := (if g then ["page"] else []) + (if h then ["limit"] else []);
      var last := if h then ["limit"] else [];
      assert Seqs.IsSubsequence(last, ["limit"]);
      assert Seqs.IsSubsequence(tail, ["page", "limit"]) by {
        if !g {
          assert tail == last;
          Seqs.SubsequenceOfTail(last, ["page", "limit"]);
        } else {
          assert tail[1..] == last;
        }
      }
      if !f {
        assert ks == tail;
        Seqs.SubsequenceOfTail(tail, all);
      } else {
        assert ks[1..] == tail;
        assert all[1..] == ["page", "limit"];
      }
    }
  }

  /** Every appended pair carries its own parameter's value: the filter
      text as given, the page and the limit as decimal text. */
  lemma QueryPairValues(filterKey: string, p: ListParams)
    requires filterKey != "page" && filterKey != "limit"
    ensures var pairs := QueryPairs(filterKey, p);
            forall i :: 0 <= i < |pairs| ==>
              && (pairs[i].0 == filterKey ==> p.filter == Some(pairs[i].1))
              && (pairs[i].0 == "page" ==> p.page.Some? && pairs[i].1 == IntToString(p.page.value))
              && (pairs[i].0 == "limit" ==> p.limit.Some? && pairs[i].1 == IntToString(p.limit.value))
  {
    var a := if TextGiven(p.filter) then [(filterKey, p.filter.value)] else [];
    var b := if NumberGiven(p.page) then [("page", IntToString(p.page.value))] else [];
    var c := if NumberGiven(p.limit) then [("limit", IntToString(p.limit.value))] else [];
    var pairs := QueryPairs(filterKey, p);
    assert pairs == a + b + c;
    forall i | 0 <= i < |pairs|
      ensures pairs[i] in a || pairs[i] in b || pairs[i] in c
    {
      if i < |a| {
        assert pairs[i] == a[i];
      } else if i < |a| + |b| {
        assert pairs[i] == b[i - |a|];
      } else {
        assert pairs[i] == c[i - |a| - |b|];
      }
    }
  }

  /** A serialized query is empty exactly when no pair was appended, so the
      URL gains a `?` exactly when some parameter is truthy. */
  lemma QuestionMarkIffParams(path: string, filterKey: string, p: ListParams, encode: string -> string)
    ensures var pairs := QueryPairs(filterKey, p);
            && (|pairs| == 0 <==> !TextGiven(p.filter) && !NumberGiven(p.page) && !NumberGiven(p.limit))
            && (|pairs| == 0 ==> WithQuery(path, pairs, encode) == path)
            && (|pairs| > 0 ==> WithQuery(path, pairs, encode)[..|path| + 1] == path + "?")
  {
    var pairs := QueryPairs(filterKey, p);
    if |pairs| > 0 {
      var items := seq(|pairs|, i requires 0 <= i < |pairs| => pairs[i].0 + "=" + encode(pairs[i].1));
      JoinStartsWithFirst(items, "&");
      assert |items[0]| > 0;
      assert Serialize(pairs, encode) != "";
      var url := WithQuery(path, pairs, encode);
      assert url == path + "?" + Serialize(pairs, encode);
      assert url[..|path| + 1] == path + "?";
    }
  }

  lemma JoinStartsWithFirst(items: seq<string>, sep: string)
    requires |items| > 0
    ensures |JsText.Join(items, sep)| >= |items[0]|
    ensures JsText.Join(items, sep)[..|items[0]|] == items[0]
  {
    if |items| > 1 {
      assert JsText.Join(items, sep) == items[0] + (sep + JsText.Join(items[1..], sep));
    }
  }

  /** The pagination block both list operations fall back on when the body
      carries none. */
  function DefaultPagination(totalItems: Json): (r: Json)
    ensures r.JObj? && "totalItems" in r.fields && r.fields["totalItems"] == totalItems
  {
    JObj(map[
      "currentPage" := JNum(1), "totalPages" := JNum(1), "totalItems" := totalItems,
      "itemsPerPage" := JNum(10), "hasNextPage" := JBool(false), "hasPrevPage" := JBool(false)])
  }

}

=== FILE: register_form.dfy ===
/** The two registration pages (src/app/register/page.tsx and its older
    copy src/pages/Register.tsx): the same checks in the same order,
    including the e-mail pattern `^[^\s@]+@[^\s@]+\.[^\s@]+$`, and
    slightly different disabled predicates. */
module RegisterForm {
  import opened Prelude
  import opened JsValue
  import JsText

  datatype Draft = Draft(nombre: string, email: string, password: string, confirmPassword: string)

  datatype Check = PasswordMismatch | PasswordTooShort | BadName | BadEmail

  function CheckMessage(c: Check): string {
    match c
    case PasswordMismatch => "Las contrase\U{00F1}as no coinciden"
    case PasswordTooShort => "La contrase\U{00F1}a debe tener al menos 6 caracteres"
    case BadName => "El nombre debe tener entre 2 y 50 caracteres"
    case BadEmail => "Por favor ingresa un email v\U{00E1}lido"
  }

  const RegisterFallback := "Error al registrarse"

  /** A character of the class `[^\s@]`. */
  predicate Plain(c: char) {
    !JsText.IsSpace(c) && c != '@'
  }

  predicate AllPlain(t: string) {
    forall k :: 0 <= k < |t| ==> Plain(t[k])
  }

  /** The pattern matches `s` with its `@` at `i` and its `\.` at `j`. */
  predicate EmailAt(s: string, i: int, j: int) {
    && 0 < i && i + 1 < j && j + 1 < |s|
    && s[i] == '@' && s[j] == '.'
    && AllPlain(s[..i]) && AllPlain(s[i + 1..j]) && AllPlain(s[j + 1..])
  }

  /** What the regular expression accepts: some placement of `@` and `.`
      with non-empty runs of `[^\s@]` around them. */
  ghost predicate EmailPattern(s: string) {
    exists i, j :: EmailAt(s, i, j)
  }

  /** A direct test of the pattern: one `@` after a non-empty plain run,
      a plain remainder, and a `.` in it that is neither its first nor
      its last character. */
  predicate IsEmail(s: string) {
    match JsText.IndexOf(s, "@")
    case None => false
    case Some(i) =>
      var d := s[i + 1..];
      && 0 < i && AllPlain(s[..i]) && AllPlain(d) && |d| >= 3
      && match JsText.IndexOf(d[1..], ".")
         case None => false
         case Some(k) => k + 2 < |d|
  }

  /** The first failed check. */
  function FirstFailure(d: Draft): Option<Check> {
    if d.password != d.confirmPassword then Some(PasswordMismatch)
    else if |d.password| < 6 then Some(PasswordTooShort)
    else if |d.nombre| < 2 || |d.nombre| > 50 then Some(BadName)
    else if !IsEmail(d.email) then Some(BadEmail)
    else None
  }

  /** What a submission leaves: the message, whether `register` was
      called, and where the page navigates. */
  datatype Outcome = Outcome(error: string, called: bool, navigate: Option<string>)

  /** `handleSubmit`, given the outcome of awaiting `register(nombre, email,
      password)`; both pages share it. */
  function HandleSubmit(d: Draft, registered: Completion<()>): (o: Outcome)
    ensures o.called <==> FirstFailure(d).None?
    ensures FirstFailure(d).Some? ==> o == Outcome(CheckMessage(FirstFailure(d).value), false, None)
    ensures o.called ==> (o.navigate.Some? <==> registered.Returned?)
    ensures o.navigate.Some? ==> o.navigate.value == "/dashboard" && o.error == ""
    ensures o.called && registered.Threw? ==> o.error == MessageOr(registered.error, RegisterFallback)
  {
    match FirstFailure(d)
    case Some(c) => Outcome(CheckMessage(c), false, None)
    case None =>
      match registered
      case Returned(_) => Outcome("", true, Some("/dashboard"))
      case Threw(e) => Outcome(MessageOr(e, RegisterFallback), true, None)
  }

  predicate AnyEmpty(d: Draft) {
    d.nombre == "" || d.email == "" || d.password == "" || d.confirmPassword == ""
  }

  /** The button of src/app/register/page.tsx, also off while submitting. */
  predicate AppDisabled(d: Draft, isLoading: bool) {
    AnyEmpty(d) || isLoading
  }

  /** The button of src/pages/Register.tsx, which ignores `isLoading`. */
  predicate PagesDisabled(d: Draft) {
    AnyEmpty(d)
  }

  // ---------------------------------------------------------------------

  lemma SlicePlain(t: string, a: int, b: int)
    requires AllPlain(t) && 0 <= a <= b <= |t|
    ensures AllPlain(t[a..b])
  {
    forall k | 0 <= k < b - a ensures Plain(t[a..b][k]) {
      assert t[a..b][k] == t[a + k];
    }
  }

  /** Whatever the direct test accepts, the pattern matches. */
  lemma {:induction false} IsEmailSound(s: string)
    requires IsEmail(s)
    ensures EmailPattern(s)
  {
    var i := JsText.IndexOf(s, "@").value;
    var d := s[i + 1..];
    var k := JsText.IndexOf(d[1..], ".").value;
    var j := i + 2 + k;
    assert JsText.OccursAt(d[1..], ".", k);
    assert d[1..][k..k + 1] == ".";
    assert s[j] == d[1..][k];
    assert JsText.OccursAt(s, "@", i);
    assert s[i..i + 1] == "@";
    SlicePlain(d, 0, j - i - 1);
    assert s[i + 1..j] == d[0..j - i - 1];
    SlicePlain(d, j - i, |d|);
    assert s[j + 1..] == d[j - i..|d|];
    assert EmailAt(s, i, j);
  }

  /** After the `@` only plain characters and the one `.` follow. */
  lemma DomainPlain(s: string, i: int, j: int)
    requires EmailAt(s, i, j)
    ensures AllPlain(s[i + 1..])
  {
    var d := s[i + 1..];
    forall m | 0 <= m < |d| ensures Plain(d[m]) {
      if m < j - i - 1 {
        assert d[m] == s[i + 1..j][m];
      } else if m > j - i - 1 {
        assert d[m] == s[j + 1..][m - (j - i)];
      } else {
        assert d[m] == s[j];
      }
    }
  }

  /** Whatever the pattern matches, the direct test accepts. */
  lemma {:induction false} IsEmailComplete(s: string)
    requires EmailPattern(s)
    ensures IsEmail(s)
  {
    var i, j :| EmailAt(s, i, j);
    assert JsText.OccursAt(s, "@", i) by { assert s[i..i + 1] == "@"; }
    forall m | 0 <= m < i
      ensures !JsText.OccursAt(s, "@", m)
    {
      assert s[m] == s[..i][m];
      JsText.OccursAtChar(s, '@', m);
    }
    assert JsText.IndexOf(s, "@") == Some(i);
    var d := s[i + 1..];
    DomainPlain(s, i, j);
    var e := d[1..];
    assert JsText.OccursAt(e, ".", j - i - 2) by { assert e[j - i - 2..j - i - 1] == [e[j - i - 2]]; }
  }

  /** The direct test accepts exactly what the pattern matches. */
  lemma {:induction false} IsEmailMatchesPattern(s: string)
    ensures IsEmail(s) <==> EmailPattern(s)
  {
    if IsEmail(s) {
      IsEmailSound(s);
    }
    if EmailPattern(s) {
      IsEmailComplete(s);
    }
  }

  /** The app page's button is disabled whenever the older page's is. */
  lemma DisabledPredicates(d: Draft, isLoading: bool)
    ensures PagesDisabled(d) ==> AppDisabled(d, isLoading)
    ensures AppDisabled(d, isLoading) <==> PagesDisabled(d) || isLoading
  {
  }

  /** A well-formed address passes; addresses with a second `@`, a space,
      no dot after the `@`, or nothing before it are refused. */
  lemma EmailExamples()
    ensures EmailPattern("a@b.co")
    ensures !EmailPattern("a@b@c.d")
    ensures !EmailPattern("@b.c")
  {
    assert EmailAt("a@b.co", 1, 3) by {
      assert "a@b.co"[..1] == "a";
      assert "a@b.co"[2..3] == "b";
      assert "a@b.co"[4..] == "co";
    }
    var twoAts := "a@b@c.d";
    assert JsText.OccursAt(twoAts, "@", 1) by { assert twoAts[1..2] == "@"; }
    JsText.OccursAtChar(twoAts, '@', 0);
    assert JsText.IndexOf(twoAts, "@") == Some(1);
    assert twoAts[2..][1] == '@';
    IsEmailMatchesPattern(twoAts);
    var noLocal := "@b.c";
    assert JsText.OccursAt(noLocal, "@", 0) by { assert noLocal[0..1] == "@"; }
    assert JsText.IndexOf(noLocal, "@") == Some(0);
    IsEmailMatchesPattern(noLocal);
  }

  /** Each check fires exactly when every earlier one passed and it fails. */
  lemma CheckOrder(d: Draft)
    ensures var f := FirstFailure(d);
            var same := d.password == d.confirmPassword;
            var longEnough := |d.password| >= 6;
            var nameOk := 2 <= |d.nombre| <= 50;
            && (f == Some(PasswordMismatch) <==> !same)
            && (f == Some(PasswordTooShort) <==> same && !longEnough)
            && (f == Some(BadName) <==> same && longEnough && !nameOk)
            && (f == Some(BadEmail) <==> same && longEnough && nameOk && !EmailPattern(d.email))
            && (f.None? <==> same && longEnough && nameOk && EmailPattern(d.email))
  {
    IsEmailMatchesPattern(d.email);
  }

  /** Both buttons are disabled only for drafts the handler refuses anyway. */
  lemma DisabledRejected(d: Draft)
    ensures PagesDisabled(d) ==> FirstFailure(d).Some?
  {
    assert JsText.IndexOf("", "@").None?;
  }
}

=== FILE: route_guard.dfy ===
/** The edge route guard (src/middleware.ts): for a request path and the
    `token` cookie, let the request through or redirect it. */
module RouteGuard {
  import opened Prelude
  import JsText

  datatype Decision = Next | Redirect(to: string)

  const ProtectedRoutes: seq<string> := ["/dashboard", "/contratos", "/services"]
  const PublicRoutes: seq<string> := ["/login", "/register"]

  /** `routes.some(route => pathname.startsWith(route))`. */
  predicate MatchesAny(pathname: string, routes: seq<string>) {
    exists i :: 0 <= i < |routes| && JsText.StartsWith(pathname, routes[i])
  }

  /** Framework, static and file requests the guard never looks at. */
  predicate Bypassed(pathname: string) {
    || JsText.StartsWith(pathname, "/api/")
    || JsText.StartsWith(pathname, "/_next/")
    || JsText.StartsWith(pathname, "/static/")
    || '.' in pathname
  }

  /** The cookie's value is used only for its truthiness: an empty value
      counts as no token. */
  predicate HasToken(token: Option<string>) {
    token.Some? && token.value != ""
  }

  /** `middleware(request)`. */
  function Middleware(pathname: string, token: Option<string>): (d: Decision)
    ensures Bypassed(pathname) ==> d == Next
    ensures d.Redirect? ==> d.to == "/login" || d.to == "/dashboard"
    ensures d == Redirect("/login") ==> !HasToken(token)
    ensures d == Redirect("/dashboard") ==> HasToken(token)
  {
    if Bypassed(pathname) then Next
    else if MatchesAny(pathname, ProtectedRoutes) && !HasToken(token) then Redirect("/login")
    else if MatchesAny(pathname, PublicRoutes) && HasToken(token) then Redirect("/dashboard")
    else if pathname == "/" then Redirect(if HasToken(token) then "/dashboard" else "/login")
    else Next
  }

  // ---------------------------------------------------------------------

  /** No path starts with both a protected and a public prefix, so at most
      one of the two prefix rules can fire. */
  lemma {:induction false} RouteListsDisjoint(pathname: string)
    ensures !(MatchesAny(pathname, ProtectedRoutes) && MatchesAny(pathname, PublicRoutes))
  {
    if MatchesAny(pathname, ProtectedRoutes) {
      var i :| 0 <= i < |ProtectedRoutes| && JsText.StartsWith(pathname, ProtectedRoutes[i]);
      forall j | 0 <= j < |PublicRoutes|
        ensures !JsText.StartsWith(pathname, PublicRoutes[j])
      {
        assert pathname[1] == ProtectedRoutes[i][1] != PublicRoutes[j][1];
        assert |pathname| >= |PublicRoutes[j]| ==> pathname[..|PublicRoutes[j]|][1] == pathname[1];
      }
    }
  }

  /** The decision for every path the guard inspects, case by case. */
  lemma Decisions(pathname: string, token: Option<string>)
    requires !Bypassed(pathname)
    ensures MatchesAny(pathname, ProtectedRoutes) ==>
              Middleware(pathname, token) == (if HasToken(token) then Next else Redirect("/login"))
    ensures MatchesAny(pathname, PublicRoutes) ==>
              Middleware(pathname, token) == (if HasToken(token) then Redirect("/dashboard") else Next)
    ensures pathname == "/" ==>
              Middleware(pathname, token) == Redirect(if HasToken(token) then "/dashboard" else "/login")
    ensures !MatchesAny(pathname, ProtectedRoutes) && !MatchesAny(pathname, PublicRoutes) && pathname != "/" ==>
              Middleware(pathname, token) == Next
  {
    RouteListsDisjoint(pathname);
    if pathname == "/" {
      assert !JsText.StartsWith(pathname, ProtectedRoutes[0]);
      assert !JsText.StartsWith(pathname, ProtectedRoutes[1]);
      assert !JsText.StartsWith(pathname, ProtectedRoutes[2]);
      assert !JsText.StartsWith(pathname, PublicRoutes[0]);
      assert !JsText.StartsWith(pathname, PublicRoutes[1]);
    }
  }

  /** Prefix matching: `/loginx` is public and `/servicesfoo` protected. */
  lemma PrefixMatching()
    ensures Middleware("/loginx", Some("t")) == Redirect("/dashboard")
    ensures Middleware("/servicesfoo", None) == Redirect("/login")
  {
    assert JsText.StartsWith("/loginx", PublicRoutes[0]);
    assert JsText.StartsWith("/servicesfoo", ProtectedRoutes[2]);
    assert !Bypassed("/loginx") by { assert "/loginx"[1] == 'l'; }
    assert !Bypassed("/servicesfoo") by {
      var p := "/servicesfoo";
      assert p[..5][1] == 's' != "/api/"[1];
      assert p[..7][1] == 's' != "/_next/"[1];
      assert p[..8][2] == 'e' != "/static/"[2];
      assert forall k | 0 <= k < |p| :: p[k] != '.';
    }
  }

  /** A present but empty cookie is treated exactly like a missing one. */
  lemma EmptyTokenIsAbsent(pathname: string)
    ensures Middleware(pathname, Some("")) == Middleware(pathname, None)
  {
  }
}

=== FILE: selection.dfy ===
/** Choosing services for a contract: the toggle both contract forms use
    (src/app/contratos/nuevo/page.tsx, src/pages/ContratoEditar.tsx) and
    the selector panel that shows the choice and its monthly total
    (src/components/ServiciosSelector.tsx). */
module Selection {
  import opened Prelude
  import opened Domain
  import Seqs

  /** No id is selected twice. */
  predicate Distinct(ids: seq<string>) {
    forall i, j :: 0 <= i < j < |ids| ==> ids[i] != ids[j]
  }

  /** `id => id !== x`. */
  function Other(x: string): string -> bool {
    y => y != x
  }

  /** `handleServicioToggle(x)`: drop every copy of `x` if it is selected,
      else append it. */
  function Toggle(ids: seq<string>, x: string): (r: seq<string>)
    ensures x in r <==> x !in ids
    ensures forall y :: y != x ==> (y in r <==> y in ids)
    ensures x !in ids ==> r == ids + [x]
  {
    if x in ids then
      var r := Seqs.Filter(ids, Other(x));
      assert forall y :: y != x && y in ids ==> y in r by {
        forall y | y != x && y in ids ensures y in r {
          var i :| 0 <= i < |ids| && ids[i] == y;
        }
      }
      r
    else ids + [x]
  }

  /** Filtering a list without repetitions leaves one without repetitions. */
  lemma {:induction false} FilterDistinct(ids: seq<string>, p: string -> bool)
    requires Distinct(ids)
    ensures Distinct(Seqs.Filter(ids, p))
    decreases |ids|
  {
    if |ids| > 0 {
      assert Distinct(ids[1..]);
      FilterDistinct(ids[1..], p);
      assert ids[0] !in ids[1..];
    }
  }

  /** A toggle keeps the selection free of repetitions. */
  lemma ToggleKeepsDistinct(ids: seq<string>, x: string)
    requires Distinct(ids)
    ensures Distinct(Toggle(ids, x))
  {
    if x in ids {
      FilterDistinct(ids, Other(x));
    }
  }

  /** Toggling an unselected id twice restores the list exactly; toggling a
      selected one twice keeps the same members but moves it to the end. */
  lemma ToggleTwice(ids: seq<string>, x: string)
    ensures x !in ids ==> Toggle(Toggle(ids, x), x) == ids
    ensures x in ids ==>
              var r := Toggle(Toggle(ids, x), x);
              (forall y :: y in r <==> y in ids) && r[|r| - 1] == x
  {
    if x !in ids {
      var once := ids + [x];
      assert Seqs.Filter(once, Other(x)) == Seqs.Filter(ids, Other(x)) + Seqs.Filter([x], Other(x)) by {
        Seqs.FilterConcat(ids, [x], Other(x));
      }
      assert Seqs.Filter([x], Other(x)) == [] by {
        assert [x][1..] == [];
      }
      Seqs.FilterKeepsAll(ids, Other(x));
    }
  }

  /** "Limpiar selección": every selected id is toggled in turn, each on
      the list the previous toggle left. */
  function ClearFrom(cur: seq<string>, pending: seq<string>): seq<string>
    decreases |pending|
  {
    if |pending| == 0 then cur else ClearFrom(Toggle(cur, pending[0]), pending[1..])
  }

  function ClearSelection(ids: seq<string>): (r: seq<string>)
    ensures Distinct(ids) ==> r == []
  {
    ClearDistinct(ids);
    ClearFrom(ids, ids)
  }

  /** Dropping every copy of `x` removes its count and keeps every other's. */
  lemma {:induction false} FilterOtherCount(s: seq<string>, x: string, y: string)
    ensures multiset(Seqs.Filter(s, Other(x)))[y] == if y == x then 0 else multiset(s)[y]
    decreases |s|
  {
    if |s| > 0 {
      assert s == [s[0]] + s[1..];
      FilterOtherCount(s[1..], x, y);
    }
  }

  /** Toggling each still-pending id, when the current list holds exactly
      the pending ids, empties it. */
  lemma {:induction false} ClearEmpties(cur: seq<string>, pending: seq<string>)
    requires Distinct(pending)
    requires multiset(cur) == multiset(pending)
    ensures ClearFrom(cur, pending) == []
    decreases |pending|
  {
    if |pending| > 0 {
      var x := pending[0];
      assert pending == [x] + pending[1..];
      assert x !in pending[1..];
      assert Distinct(pending[1..]);
      assert x in multiset(cur);
      var next := Toggle(cur, x);
      assert next == Seqs.Filter(cur, Other(x));
      forall y
        ensures multiset(next)[y] == multiset(pending[1..])[y]
      {
        FilterOtherCount(cur, x, y);
      }
      assert multiset(next) == multiset(pending[1..]);
      ClearEmpties(next, pending[1..]);
    }
  }

  lemma ClearDistinct(ids: seq<string>)
    ensures Distinct(ids) ==> ClearFrom(ids, ids) == []
  {
    if Distinct(ids) {
      ClearEmpties(ids, ids);
    }
  }

  /** A selection holding an id twice is not emptied: the second toggle
      puts it back. */
  lemma ClearWithDuplicate(x: string)
    ensures ClearSelection([x, x]) == [x]
  {
    assert Toggle([x, x], x) == [] by {
      assert Seqs.Filter([x, x], Other(x)) == [];
    }
    assert Toggle([], x) == [x];
    assert [x, x][1..] == [x];
    assert [x][1..] == [];
    assert ClearFrom([x, x], [x, x]) == ClearFrom([], [x]);
    assert ClearFrom([], [x]) == ClearFrom([x], []);
  }

  /** `servicios.find(s => s._id === id)`. */
  function Find(catalog: seq<Service>, id: string): (r: Option<Service>)
    ensures r.Some? ==> r.value in catalog && r.value.id == id
    ensures r.Some? ==> exists k :: 0 <= k < |catalog| && catalog[k] == r.value
                                    && forall j :: 0 <= j < k ==> catalog[j].id != id
    ensures r.None? ==> forall i :: 0 <= i < |catalog| ==> catalog[i].id != id
  {
    if |catalog| == 0 then None
    else if catalog[0].id == id then Some(catalog[0])
    else
      var r := Find(catalog[1..], id);
      if r.Some? then
        var k :| 0 <= k < |catalog[1..]| && catalog[1..][k] == r.value
                 && forall j :: 0 <= j < k ==> catalog[1..][j].id != id;
        assert catalog[k + 1] == r.value;
        assert forall j :: 0 <= j < k + 1 ==> catalog[j].id != id by {
          forall j | 0 <= j < k + 1 ensures catalog[j].id != id {
            if j > 0 { assert catalog[j] == catalog[1..][j - 1]; }
          }
        }
        r
      else r
  }

  /** `id => servicios.find(s => s._id === id)` finds something. */
  function Known(catalog: seq<Service>): string -> bool {
    id => Find(catalog, id).Some?
  }

  /** The "Servicios seleccionados" rows: the selected ids found in the
      catalog, in selection order; unknown ids show nothing. */
  function Summary(catalog: seq<Service>, ids: seq<string>): (r: seq<Service>)
    ensures |r| <= |ids|
    ensures forall i :: 0 <= i < |r| ==> r[i] in catalog && r[i].id in ids
  {
    if |ids| == 0 then []
    else
      match Find(catalog, ids[0])
      case Some(s) => [s] + Summary(catalog, ids[1..])
      case None => Summary(catalog, ids[1..])
  }

  /** The ids of some rows, in their order. */
  function IdsOf(rows: seq<Service>): seq<string> {
    if |rows| == 0 then [] else [rows[0].id] + IdsOf(rows[1..])
  }

  /** The rows are, in selection order, exactly the selected ids the
      catalog knows. */
  lemma {:induction false} SummaryListsKnown(catalog: seq<Service>, ids: seq<string>)
    ensures IdsOf(Summary(catalog, ids)) == Seqs.Filter(ids, Known(catalog))
    decreases |ids|
  {
    if |ids| > 0 {
      var rest := Summary(catalog, ids[1..]);
      SummaryListsKnown(catalog, ids[1..]);
      assert Known(catalog)(ids[0]) == Find(catalog, ids[0]).Some?;
      match Find(catalog, ids[0])
      case Some(s) =>
        assert Summary(catalog, ids) == [s] + rest;
        assert ([s] + rest)[1..] == rest;
      case None =>
        assert Summary(catalog, ids) == rest;
    }
  }

  /** Each row is the first catalog service with its id. */
  lemma {:induction false} SummaryShowsFirstMatch(catalog: seq<Service>, ids: seq<string>)
    ensures var r := Summary(catalog, ids);
            forall i :: 0 <= i < |r| ==> Find(catalog, r[i].id) == Some(r[i])
    decreases |ids|
  {
    if |ids| > 0 {
      SummaryShowsFirstMatch(catalog, ids[1..]);
      match Find(catalog, ids[0])
      case Some(s) =>
        assert Summary(catalog, ids) == [s] + Summary(catalog, ids[1..]);
      case None =>
        assert Summary(catalog, ids) == Summary(catalog, ids[1..]);
    }
  }

  function SumPrices(rows: seq<Service>): real {
    if |rows| == 0 then 0.0 else rows[0].precio + SumPrices(rows[1..])
  }

  /** What one selected id adds to the total: its service's price, or 0
      when the catalog does not hold it. */
  function PriceOf(catalog: seq<Service>, id: string): real {
    match Find(catalog, id)
    case Some(s) => s.precio
    case None => 0.0
  }

  /** "Total mensual": the left-to-right reduce over the selected ids. */
  function Total(catalog: seq<Service>, ids: seq<string>): real
    decreases |ids|
  {
    if |ids| == 0 then 0.0
    else Total(catalog, ids[..|ids| - 1]) + PriceOf(catalog, ids[|ids| - 1])
  }

  lemma {:induction false} SummaryConcat(catalog: seq<Service>, a: seq<string>, b: seq<string>)
    ensures Summary(catalog, a + b) == Summary(catalog, a) + Summary(catalog, b)
    decreases |a|
  {
    if |a| > 0 {
      assert (a + b)[1..] == a[1..] + b;
      assert (a + b)[0] == a[0];
      SummaryConcat(catalog, a[1..], b);
    } else {
      assert a + b == b;
    }
  }

  lemma {:induction false} SumPricesConcat(a: seq<Service>, b: seq<Service>)
    ensures SumPrices(a + b) == SumPrices(a) + SumPrices(b)
    decreases |a|
  {
    if |a| > 0 {
      assert (a + b)[1..] == a[1..] + b;
      assert (a + b)[0] == a[0];
      SumPricesConcat(a[1..], b);
    } else {
      assert a + b == b;
    }
  }

  /** The total shown equals the sum of the prices on the rows listed above
      it, so ids missing from the catalog add nothing. */
  lemma {:induction false} TotalIsSumOfRows(catalog: seq<Service>, ids: seq<string>)
    ensures Total(catalog, ids) == SumPrices(Summary(catalog, ids))
    decreases |ids|
  {
    if |ids| > 0 {
      var init := ids[..|ids| - 1];
      var last := ids[|ids| - 1];
      TotalIsSumOfRows(catalog, init);
      assert ids == init + [last];
      SummaryConcat(catalog, init, [last]);
      SumPricesConcat(Summary(catalog, init), Summary(catalog, [last]));
      assert Summary(catalog, [last][1..]) == [];
      assert SumPrices(Summary(catalog, [last])) == PriceOf(catalog, last);
    }
  }

  /** One catalog card: the service and whether it is selected. */
  datatype Card = Card(service: Service, selected: bool)

  /** What the selector panel shows. */
  datatype Panel =
    | Loading
    | Failed(message: string)
    | Empty
    | Cards(cards: seq<Card>, count: nat, canClear: bool, summary: Option<Totals>)

  /** The block under the cards: the selected rows and the monthly total. */
  datatype Totals = Totals(rows: seq<Service>, total: real)

  /** The panel, by precedence: loading, then a non-empty error, then an
      empty catalog, then the cards, followed by the summary block only
      while some id is selected. */
  function Render(catalog: seq<Service>, ids: seq<string>, isLoading: bool, error: Option<string>): (r: Panel)
    ensures r.Loading? <==> isLoading
    ensures r.Failed? <==> !isLoading && error.Some? && error.value != ""
    ensures r.Failed? ==> r.message == error.value
    ensures r.Empty? <==> !isLoading && (error.None? || error.value == "") && |catalog| == 0
    ensures r.Cards? ==>
              && |r.cards| == |catalog|
              && (forall i :: 0 <= i < |catalog| ==>
                    r.cards[i].service == catalog[i] && (r.cards[i].selected <==> catalog[i].id in ids))
              && r.count == |ids| && (r.canClear <==> |ids| > 0)
              && (r.summary.Some? <==> |ids| > 0)
              && (r.summary.Some? ==>
                    r.summary.value.rows == Summary(catalog, ids)
                    && r.summary.value.total == SumPrices(r.summary.value.rows))
  {
    if isLoading then Loading
    else if error.Some? && error.value != "" then Failed(error.value)
    else if |catalog| == 0 then Empty
    else
      TotalIsSumOfRows(catalog, ids);
      Cards(seq(|catalog|, i requires 0 <= i < |catalog| => Card(catalog[i], catalog[i].id in ids)),
            |ids|, |ids| > 0,
            if |ids| > 0 then Some(Totals(Summary(catalog, ids), Total(catalog, ids))) else None)
  }
}

=== FILE: seqs.dfy ===
/** Order-preserving filtering and counting over sequences, the two list
    operations (`Array.prototype.filter`, `filter(...).length`) the stores
    and views are built from. */
module Seqs {

  /** `s.filter(p)`. */
  function Filter<T(==)>(s: seq<T>, p: T -> bool): (r: seq<T>)
    ensures |r| <= |s|
    ensures forall i :: 0 <= i < |r| ==> p(r[i]) && r[i] in s
    ensures forall i :: 0 <= i < |s| && p(s[i]) ==> s[i] in r
    decreases |s|
  {
    if |s| == 0 then []
    else if p(s[0]) then [s[0]] + Filter(s[1..], p)
    else Filter(s[1..], p)
  }

  /** Splitting by a predicate and its complement loses and adds nothing:
      the two parts together hold every element as often as `s` does. */
  lemma {:induction false} FilterPartition<T>(s: seq<T>, p: T -> bool, q: T -> bool)
    requires forall i :: 0 <= i < |s| ==> q(s[i]) == !p(s[i])
    ensures multiset(Filter(s, p)) + multiset(Filter(s, q)) == multiset(s)
    decreases |s|
  {
    if |s| > 0 {
      FilterPartition(s[1..], p, q);
      assert s == [s[0]] + s[1..];
    }
  }

  /** Filtering keeps every element satisfying `p` as many times as it
      occurs, and no other. */
  lemma FilterMultiset<T>(s: seq<T>, p: T -> bool)
    ensures multiset(Filter(s, p)) <= multiset(s)
    ensures forall i :: 0 <= i < |s| ==>
              multiset(Filter(s, p))[s[i]] == if p(s[i]) then multiset(s)[s[i]] else 0
  {
    var q := Not(p);
    FilterPartition(s, p, q);
    forall i | 0 <= i < |s|
      ensures multiset(Filter(s, p))[s[i]] == if p(s[i]) then multiset(s)[s[i]] else 0
    {
      if p(s[i]) {
        assert s[i] !in Filter(s, q);
      } else {
        assert s[i] !in Filter(s, p);
      }
    }
  }

  /** `x => !p(x)`. */
  function Not<T>(p: T -> bool): T -> bool {
    x => !p(x)
  }

  /** `s.filter(p).length`. */
  function CountWhere<T(==)>(s: seq<T>, p: T -> bool): nat {
    |Filter(s, p)|
  }

  /** `a` is `b` with some elements dropped and the rest in their order. */
  predicate IsSubsequence<T(==)>(a: seq<T>, b: seq<T>)
    decreases |b|
  {
    if |a| == 0 then true
    else if |b| == 0 then false
    else if a[0] == b[0] then IsSubsequence(a[1..], b[1..])
    else IsSubsequence(a, b[1..])
  }

  /** Filtering keeps the surviving elements in their original order. */
  lemma {:induction false} FilterIsSubsequence<T>(s: seq<T>, p: T -> bool)
    ensures IsSubsequence(Filter(s, p), s)
    decreases |s|
  {
    if |s| > 0 {
      FilterIsSubsequence(s[1..], p);
      if !p(s[0]) {
        SubsequenceOfTail(Filter(s[1..], p), s);
      }
    }
  }

  /** A subsequence of the tail of `b` is a subsequence of `b`. */
  lemma {:induction false} SubsequenceOfTail<T>(a: seq<T>, b: seq<T>)
    requires |b| > 0
    requires IsSubsequence(a, b[1..])
    ensures IsSubsequence(a, b)
    decreases |b|, |a|
  {
    if |a| > 0 && a[0] == b[0] {
      DropHeadSubsequence(a, b[1..]);
    }
  }

  /** Dropping the head of `a` keeps it a subsequence of the same sequence. */
  lemma {:induction false} DropHeadSubsequence<T>(a: seq<T>, b: seq<T>)
    requires |a| > 0
    requires IsSubsequence(a, b)
    ensures IsSubsequence(a[1..], b)
    decreases |b|, |a|
  {
    if a[0] == b[0] {
      if |a| > 1 {
        SubsequenceOfTail(a[1..], b);
      }
    } else {
      DropHeadSubsequence(a, b[1..]);
      if |a| > 1 {
        SubsequenceOfTail(a[1..], b);
      }
    }
  }

  /** Filtering twice with the same predicate is filtering once. */
  lemma {:induction false} FilterIdempotent<T>(s: seq<T>, p: T -> bool)
    ensures Filter(Filter(s, p), p) == Filter(s, p)
    decreases |s|
  {
    if |s| > 0 {
      FilterIdempotent(s[1..], p);
    }
  }

  /** A predicate that holds of every element keeps the whole sequence. */
  lemma {:induction false} FilterKeepsAll<T>(s: seq<T>, p: T -> bool)
    requires forall i :: 0 <= i < |s| ==> p(s[i])
    ensures Filter(s, p) == s
    decreases |s|
  {
    if |s| > 0 {
      FilterKeepsAll(s[1..], p);
    }
  }

  /** Filtering distributes over concatenation. */
  lemma {:induction false} FilterConcat<T>(a: seq<T>, b: seq<T>, p: T -> bool)
    ensures Filter(a + b, p) == Filter(a, p) + Filter(b, p)
    decreases |a|
  {
    if |a| > 0 {
      assert (a + b)[1..] == a[1..] + b;
      FilterConcat(a[1..], b, p);
    } else {
      assert a + b == b;
    }
  }
}

=== FILE: service_form.dfy ===
/** The service creation page (src/app/services/nuevo/page.tsx): the
    submit handler's checks, the trimmed request it sends, and its
    disabled predicate. */
module ServiceForm {
  import opened Prelude
  import opened JsValue
  import JsText
  import CatalogService

  /** The form's fields; the price is the text typed. */
  datatype Draft = Draft(nombre: string, descripcion: string, precio: string, tipo: string)

  datatype Check = BadName | BadDescription | BadPrice | BadType

  function CheckMessage(c: Check): string {
    match c
    case BadName => "El nombre debe tener entre 2 y 100 caracteres"
    case BadDescription => "La descripci\U{00F3}n debe tener entre 10 y 500 caracteres"
    case BadPrice => "El precio debe ser un n\U{00FA}mero mayor o igual a 0"
    case BadType => "El tipo debe ser \"Internet\" o \"Televisi\U{00F3}n\""
  }

  const Types: seq<string> := ["Internet", "Televisi\U{00F3}n"]

  const CreateFallback := "Error al crear servicio"

  /** The first failed check, lengths measured before trimming; `parseNumber`
      is `parseFloat`, None for NaN. */
  function FirstFailure(d: Draft, parseNumber: string -> Option<real>): Option<Check> {
    if |d.nombre| < 2 || |d.nombre| > 100 then Some(BadName)
    else if |d.descripcion| < 10 || |d.descripcion| > 500 then Some(BadDescription)
    else if parseNumber(d.precio).None? || parseNumber(d.precio).value < 0.0 then Some(BadPrice)
    else if d.tipo !in Types then Some(BadType)
    else None
  }

  /** What a submission leaves: the message, the request sent if any, and
      where the page navigates. */
  datatype Outcome = Outcome(error: string, sent: Option<CatalogService.CreateRequest>, navigate: Option<string>)

  /** `handleSubmit`, given the outcome of awaiting `createServicio`. */
  function HandleSubmit(d: Draft, parseNumber: string -> Option<real>, created: Completion<()>): (o: Outcome)
    ensures o.sent.Some? <==> FirstFailure(d, parseNumber).None?
    ensures FirstFailure(d, parseNumber).Some? ==>
              o == Outcome(CheckMessage(FirstFailure(d, parseNumber).value), None, None)
    ensures o.sent.Some? ==>
              && o.sent.value.nombre == JsText.Trim(d.nombre)
              && o.sent.value.descripcion == JsText.Trim(d.descripcion)
              && o.sent.value.precio == parseNumber(d.precio).value && o.sent.value.precio >= 0.0
              && o.sent.value.tipo == d.tipo && o.sent.value.tipo in Types
    ensures o.sent.Some? ==> (o.navigate.Some? <==> created.Returned?)
    ensures o.navigate.Some? ==> o.navigate.value == "/services" && o.error == ""
    ensures o.sent.Some? && created.Threw? ==> o.error == MessageOr(created.error, CreateFallback)
  {
    match FirstFailure(d, parseNumber)
    case Some(c) => Outcome(CheckMessage(c), None, None)
    case None =>
      var req := CatalogService.CreateRequest(JsText.Trim(d.nombre), JsText.Trim(d.descripcion),
                                              parseNumber(d.precio).value, d.tipo);
      match created
      case Returned(_) => Outcome("", Some(req), Some("/services"))
      case Threw(e) => Outcome(MessageOr(e, CreateFallback), Some(req), None)
  }

  /** The submit button's `disabled` expression. */
  predicate Disabled(d: Draft) {
    d.nombre == "" || d.descripcion == "" || d.precio == ""
  }

  // ---------------------------------------------------------------------

  /** The domain service trims again, which changes nothing in what the
      page sends. */
  lemma ServiceKeepsPageRequest(d: Draft, parseNumber: string -> Option<real>, created: Completion<()>)
    requires FirstFailure(d, parseNumber).None?
    ensures var req := HandleSubmit(d, parseNumber, created).sent.value;
            CatalogService.CreatePayload(req) == req
  {
    JsText.TrimIdempotent(d.nombre);
    JsText.TrimIdempotent(d.descripcion);
  }

  /** Two spaces and a letter trim to the letter. */
  lemma TrimPaddedLetter()
    ensures JsText.Trim("  a") == "a"
  {
    var s2, s1, s0 := "  a", " a", "a";
    assert s2[0] == ' ' && s2[1..] == s1;
    assert s1[0] == ' ' && s1[1..] == s0;
    assert !JsText.IsSpace(s0[0]);
    assert JsText.TrimStart(s0) == s0;
    assert JsText.TrimStart(s1) == s0;
    assert JsText.TrimStart(s2) == s0;
    assert JsText.TrimEnd(s0) == s0;
  }

  /** Lengths are checked before trimming: a name of one letter padded
      with spaces passes and is sent as one letter. */
  lemma PaddedNameAccepted(parseNumber: string -> Option<real>, created: Completion<()>)
    requires parseNumber("10") == Some(10.0)
    ensures var d := Draft("  a", "descripcion larga", "10", "Internet");
            && HandleSubmit(d, parseNumber, created).sent.Some?
            && HandleSubmit(d, parseNumber, created).sent.value.nombre == "a"
  {
    var d := Draft("  a", "descripcion larga", "10", "Internet");
    assert |d.nombre| == 3 && |d.descripcion| == 17;
    assert d.tipo in Types by {
      assert d.tipo == Types[0];
    }
    assert FirstFailure(d, parseNumber).None?;
    TrimPaddedLetter();
  }

  /** Each check fires exactly when every earlier one passed and it fails. */
  lemma CheckOrder(d: Draft, parseNumber: string -> Option<real>)
    ensures var f := FirstFailure(d, parseNumber);
            var nameOk := 2 <= |d.nombre| <= 100;
            var descOk := 10 <= |d.descripcion| <= 500;
            var priceOk := parseNumber(d.precio).Some? && parseNumber(d.precio).value >= 0.0;
            && (f == Some(BadName) <==> !nameOk)
            && (f == Some(BadDescription) <==> nameOk && !descOk)
            && (f == Some(BadPrice) <==> nameOk && descOk && !priceOk)
            && (f == Some(BadType) <==> nameOk && descOk && priceOk && d.tipo !in Types)
            && (f.None? <==> nameOk && descOk && priceOk && d.tipo in Types)
  {
  }

  /** The button is disabled only for drafts the handler refuses anyway,
      `parseFloat("")` being NaN. */
  lemma DisabledRejected(d: Draft, parseNumber: string -> Option<real>)
    requires parseNumber("") == None
    ensures Disabled(d) ==> FirstFailure(d, parseNumber).Some?
  {
  }
}

=== FILE: stats.dfy ===
/** The statistics cards (src/components/StatsCards.tsx): active
    contracts, contracts ending within thirty days, and the number of
    services over all contracts. */
module Stats {
  import opened Prelude
  import opened Domain
  import Seqs

  const DayMs: int := 1000 * 60 * 60 * 24

  function IsActive(c: Contract): bool {
    c.estado == Activo
  }

  /** `Math.ceil(a / b)` for a positive divisor. */
  function CeilDiv(a: int, b: int): (r: int)
    requires b > 0
    ensures (r - 1) * b < a <= r * b
  {
    -((-a) / b)
  }

  /** Days left, rounded up, is between 1 and 30; an invalid end date
      yields NaN, for which both comparisons are false. */
  predicate EndsSoon(end: Option<int>, nowMs: int) {
    end.Some? && 0 < CeilDiv(end.value - nowMs, DayMs) <= 30
  }

  function EndsSoonFor(parseDate: string -> Option<int>, nowMs: int): Contract -> bool {
    (c: Contract) => EndsSoon(parseDate(c.fechaFin), nowMs)
  }

  /** `activos`. */
  function Activos(cs: seq<Contract>): (r: nat)
    ensures r <= |cs|
  {
    Seqs.CountWhere(cs, IsActive)
  }

  /** `proximosVencer`, for the date parser and the clock. */
  function ProximosVencer(cs: seq<Contract>, parseDate: string -> Option<int>, nowMs: int): (r: nat)
    ensures r <= |cs|
  {
    Seqs.CountWhere(cs, EndsSoonFor(parseDate, nowMs))
  }

  /** `totalServicios`: the sum of every contract's service count. */
  function TotalServicios(cs: seq<Contract>): nat {
    if |cs| == 0 then 0 else |cs[0].serviciosIds| + TotalServicios(cs[1..])
  }

  // ---------------------------------------------------------------------

  /** The rounded-up day count is in 1..30 exactly when the end lies after
      now and no more than thirty whole days ahead. */
  lemma EndsSoonWindow(endMs: int, nowMs: int)
    ensures EndsSoon(Some(endMs), nowMs) <==> 0 < endMs - nowMs <= 30 * DayMs
  {
    var a := endMs - nowMs;
    var r := CeilDiv(a, DayMs);
    assert (r - 1) * DayMs < a <= r * DayMs;
    if 0 < a <= 30 * DayMs {
      assert r > 0 && r <= 30;
    }
  }

  function HasServices(c: Contract): bool {
    |c.serviciosIds| > 0
  }

  /** The service total is at least the number of contracts with any
      service, and zero exactly when no contract has one. */
  lemma {:induction false} TotalCountsContracts(cs: seq<Contract>)
    ensures TotalServicios(cs) >= Seqs.CountWhere(cs, HasServices)
    ensures TotalServicios(cs) == 0 <==> Seqs.CountWhere(cs, HasServices) == 0
    decreases |cs|
  {
    if |cs| > 0 {
      TotalCountsContracts(cs[1..]);
    }
  }
}

=== FILE: store_core.dfy ===
/** The behaviour the two client-side stores share: a cached value, a
    loading flag and an error message, and one transition per action.
    Every action first sets `isLoading := true, error := null`, awaits one
    domain-service call, then finishes with `isLoading := false`. Calls run
    atomically here. */
module StoreCore {
  import opened Prelude
  import opened JsValue
  import opened Domain
  import Seqs

  /** The cached value. It starts as an array; a successful fetch stores the
      domain service's whole `{ items, pagination }` record in its place,
      which is not an array. */
  datatype Cache<T> = Items(entries: seq<T>) | Fetched(listing: Listing)

  datatype Store<T> = Store(cache: Cache<T>, isLoading: bool, error: Option<string>)

  /** The store after an action, and what the action returns or rethrows. */
  datatype Step<T, R> = Step(store: Store<T>, outcome: Completion<R>)

  function Initial<T>(): (s: Store<T>)
    ensures s.cache == Items([]) && !s.isLoading && s.error.None?
  {
    Store(Items([]), false, None)
  }

  /** `Array.isArray(cache) ? cache : []`, the guard the views apply. */
  function Entries<T>(c: Cache<T>): seq<T> {
    match c
    case Items(xs) => xs
    case Fetched(_) => []
  }

  /** The state every action sets before it awaits its call. */
  function Begin<T>(s: Store<T>): (r: Store<T>)
    ensures r.isLoading && r.error.None? && r.cache == s.cache
  {
    s.(isLoading := true, error := None)
  }

  /** The catch block: record `error.message || fallback`, stop loading,
      rethrow. */
  function Fail<T, R>(s: Store<T>, e: JsError, fallback: string): (r: Step<T, R>)
    ensures r.store.cache == s.cache && !r.store.isLoading
    ensures r.store.error == Some(MessageOr(e, fallback)) && r.outcome == Threw(e)
  {
    Step(Store(s.cache, false, Some(MessageOr(e, fallback))), Threw(e))
  }

  // ---------------------------------------------------------------------
  // The cache algebra on arrays.

  /** `entries.map(x => key(x) === id ? y : x)`. */
  function ReplaceWhere<T>(entries: seq<T>, key: T -> string, id: string, y: T): (r: seq<T>)
    ensures |r| == |entries|
    ensures forall i :: 0 <= i < |entries| ==>
              r[i] == (if key(entries[i]) == id then y else entries[i])
    decreases |entries|
  {
    if |entries| == 0 then []
    else [if key(entries[0]) == id then y else entries[0]] + ReplaceWhere(entries[1..], key, id, y)
  }

  /** `key(x) !== id`, the predicate the delete action filters by. */
  function KeptBy<T>(key: T -> string, id: string): T -> bool {
    x => key(x) != id
  }

  /** `key(x) === id`, what the delete action drops. */
  function MatchedBy<T>(key: T -> string, id: string): T -> bool {
    x => key(x) == id
  }

  /** `entries.filter(x => key(x) !== id)`. What is kept and what is
      dropped (every entry with the id) together are the entries, each as
      often as it was cached. */
  function RemoveWhere<T(==)>(entries: seq<T>, key: T -> string, id: string): (r: seq<T>)
    ensures forall i :: 0 <= i < |r| ==> key(r[i]) != id && r[i] in entries
    ensures forall i :: 0 <= i < |entries| && key(entries[i]) != id ==> entries[i] in r
    ensures Seqs.IsSubsequence(r, entries)
    ensures multiset(r) + multiset(Seqs.Filter(entries, MatchedBy(key, id))) == multiset(entries)
  {
    Seqs.FilterIsSubsequence(entries, KeptBy(key, id));
    Seqs.FilterPartition(entries, KeptBy(key, id), MatchedBy(key, id));
    Seqs.Filter(entries, KeptBy(key, id))
  }

  // ---------------------------------------------------------------------
  // The actions.

  /** `fetch…`: on success the cache becomes the returned record; on
      failure the message is recorded and the cache kept; nothing is
      rethrown. */
  function Fetch<T>(s: Store<T>, call: Completion<Listing>, fallback: string): (r: Store<T>)
    ensures !r.isLoading
    ensures call.Returned? ==> r.cache == Fetched(call.value) && r.error.None?
    ensures call.Threw? ==> r.cache == s.cache && r.error == Some(MessageOr(call.error, fallback))
  {
    var b := Begin(s);
    match call
    case Returned(listing) => b.(cache := Fetched(listing), isLoading := false)
    case Threw(e) => b.(isLoading := false, error := Some(MessageOr(e, fallback)))
  }

  /** `get…ById` and `get…By…`: pass the call's value through; the cache is
      never touched. */
  function Read<T, R>(s: Store<T>, call: Completion<R>, fallback: string): (r: Step<T, R>)
    ensures r.store.cache == s.cache && !r.store.isLoading
    ensures r.outcome == call
    ensures call.Returned? ==> r.store.error.None?
    ensures call.Threw? ==> r.store.error == Some(MessageOr(call.error, fallback))
  {
    var b := Begin(s);
    match call
    case Returned(v) => Step(b.(isLoading := false), Returned(v))
    case Threw(e) => Fail(b, e, fallback)
  }

  /** `create…`: `[...cache, created]`. Spreading a non-array cache throws
      a TypeError, which the catch block records and rethrows. */
  function Create<T>(s: Store<T>, call: Completion<T>, fallback: string): (r: Step<T, ()>)
    ensures !r.store.isLoading
    ensures r.outcome.Returned? <==> call.Returned? && s.cache.Items?
    ensures r.outcome.Returned? ==>
              r.store.cache == Items(s.cache.entries + [call.value]) && r.store.error.None?
    ensures r.outcome.Threw? ==>
              r.store.cache == s.cache && r.store.error == Some(MessageOr(r.outcome.error, fallback))
    ensures call.Threw? ==> r.outcome == Threw(call.error)
    ensures call.Returned? && s.cache.Fetched? ==> r.outcome == Threw(TypeErrorValue)
  {
    var b := Begin(s);
    match call
    case Threw(e) => Fail(b, e, fallback)
    case Returned(created) =>
      match b.cache
      case Items(xs) => Step(b.(cache := Items(xs + [created]), isLoading := false), Returned(()))
      case Fetched(_) => Fail(b, TypeErrorValue, fallback)
  }

  /** `update…`: `cache.map(x => key(x) === id ? updated : x)`. */
  function Update<T>(s: Store<T>, key: T -> string, id: string, call: Completion<T>, fallback: string)
    : (r: Step<T, ()>)
    ensures !r.store.isLoading
    ensures r.outcome.Returned? <==> call.Returned? && s.cache.Items?
    ensures r.outcome.Returned? ==>
              r.store.cache == Items(ReplaceWhere(s.cache.entries, key, id, call.value))
              && r.store.error.None?
    ensures r.outcome.Threw? ==>
              r.store.cache == s.cache && r.store.error == Some(MessageOr(r.outcome.error, fallback))
    ensures call.Threw? ==> r.outcome == Threw(call.error)
    ensures call.Returned? && s.cache.Fetched? ==> r.outcome == Threw(TypeErrorValue)
  {
    var b := Begin(s);
    match call
    case Threw(e) => Fail(b, e, fallback)
    case Returned(updated) =>
      match b.cache
      case Items(xs) =>
        Step(b.(cache := Items(ReplaceWhere(xs, key, id, updated)), isLoading := false), Returned(()))
      case Fetched(_) => Fail(b, TypeErrorValue, fallback)
  }

  /** `delete…`: `cache.filter(x => key(x) !== id)` once the call succeeds. */
  function Delete<T(==)>(s: Store<T>, key: T -> string, id: string, call: Completion<()>, fallback: string)
    : (r: Step<T, ()>)
    ensures !r.store.isLoading
    ensures r.outcome.Returned? <==> call.Returned? && s.cache.Items?
    ensures r.outcome.Returned? ==>
              r.store.cache == Items(RemoveWhere(s.cache.entries, key, id)) && r.store.error.None?
    ensures r.outcome.Threw? ==>
              r.store.cache == s.cache && r.store.error == Some(MessageOr(r.outcome.error, fallback))
    ensures call.Threw? ==> r.outcome == Threw(call.error)
    ensures call.Returned? && s.cache.Fetched? ==> r.outcome == Threw(TypeErrorValue)
  {
    var b := Begin(s);
    match call
    case Threw(e) => Fail(b, e, fallback)
    case Returned(_) =>
      match b.cache
      case Items(xs) => Step(b.(cache := Items(RemoveWhere(xs, key, id)), isLoading := false), Returned(()))
      case Fetched(_) => Fail(b, TypeErrorValue, fallback)
  }

  /** `clearError`: only the message changes. */
  function ClearError<T>(s: Store<T>): (r: Store<T>)
    ensures r.error.None? && r.cache == s.cache && r.isLoading == s.isLoading
  {
    s.(error := None)
  }

  // ---------------------------------------------------------------------
  // Laws of the cache algebra.

  /** Creation appends without deduplicating: a value already cached is
      cached twice afterwards, at its old place and at the end. */
  lemma AppendDoesNotDedupe<T>(xs: seq<T>, y: T, i: int)
    requires 0 <= i < |xs| && xs[i] == y
    ensures var r := xs + [y]; |r| == |xs| + 1 && r[i] == y && r[|xs|] == y && r[..|xs|] == xs
  {
  }

  /** Replacing when no entry carries the id leaves the array as it was. */
  lemma ReplaceWithoutMatch<T>(xs: seq<T>, key: T -> string, id: string, y: T)
    requires forall i :: 0 <= i < |xs| ==> key(xs[i]) != id
    ensures ReplaceWhere(xs, key, id, y) == xs
  {
  }

  /** Replacing twice with the same record is replacing once. */
  lemma ReplaceIdempotent<T>(xs: seq<T>, key: T -> string, id: string, y: T)
    ensures ReplaceWhere(ReplaceWhere(xs, key, id, y), key, id, y) == ReplaceWhere(xs, key, id, y)
  {
  }

  /** Entries whose key differs from `id` are exactly the ones replacing
      leaves in place; the replaced ones all become `y`. */
  lemma ReplaceTouchesOnlyMatches<T>(xs: seq<T>, key: T -> string, id: string, y: T, i: int)
    requires 0 <= i < |xs|
    ensures key(xs[i]) != id ==> ReplaceWhere(xs, key, id, y)[i] == xs[i]
    ensures key(xs[i]) == id ==> ReplaceWhere(xs, key, id, y)[i] == y
  {
  }

  /** Deleting twice is deleting once. */
  lemma RemoveIdempotent<T>(xs: seq<T>, key: T -> string, id: string)
    ensures RemoveWhere(RemoveWhere(xs, key, id), key, id) == RemoveWhere(xs, key, id)
  {
    Seqs.FilterIdempotent(xs, KeptBy(key, id));
  }

  /** Deleting an id nothing carries leaves the array as it was. */
  lemma RemoveWithoutMatch<T>(xs: seq<T>, key: T -> string, id: string)
    requires forall i :: 0 <= i < |xs| ==> key(xs[i]) != id
    ensures RemoveWhere(xs, key, id) == xs
  {
    Seqs.FilterKeepsAll(xs, KeptBy(key, id));
  }

  /** Deleting what was just created restores the array minus every entry
      with that id (the created one and any older one). */
  lemma RemoveAfterAppend<T>(xs: seq<T>, key: T -> string, y: T)
    ensures RemoveWhere(xs + [y], key, key(y)) == RemoveWhere(xs, key, key(y))
  {
    Seqs.FilterConcat(xs, [y], KeptBy(key, key(y)));
    assert Seqs.Filter([y], KeptBy(key, key(y))) == [];
  }

  /** Deleting an id after replacing its entries by a record with that id
      is the same as deleting it directly. */
  lemma {:induction false} RemoveAfterReplace<T>(xs: seq<T>, key: T -> string, id: string, y: T)
    requires key(y) == id
    ensures RemoveWhere(ReplaceWhere(xs, key, id, y), key, id) == RemoveWhere(xs, key, id)
    decreases |xs|
  {
    if |xs| > 0 {
      var r := ReplaceWhere(xs, key, id, y);
      assert r[1..] == ReplaceWhere(xs[1..], key, id, y);
      RemoveAfterReplace(xs[1..], key, id, y);
    }
  }

  /** The delete action applied a second time finds nothing more to remove. */
  lemma DeleteTwice<T>(s: Store<T>, key: T -> string, id: string, fallback: string)
    requires s.cache.Items?
    ensures var once := Delete(s, key, id, Returned(()), fallback).store;
            var twice := Delete(once, key, id, Returned(()), fallback).store;
            twice == once
  {
    RemoveIdempotent(s.cache.entries, key, id);
  }

  /** Once a fetch has stored its record, the cache is never an array again:
      every later action keeps a fetched record, the views see no entries,
      and create, update and delete fail with a TypeError even when their
      call succeeds. */
  lemma FetchedCacheIsSticky<T>(
      s: Store<T>, key: T -> string, id: string, fallback: string,
      listing: Completion<Listing>, created: Completion<T>, removed: Completion<()>)
    requires s.cache.Fetched?
    ensures Entries(s.cache) == []
    ensures Fetch(s, listing, fallback).cache.Fetched?
    ensures Create(s, created, fallback).store.cache == s.cache
    ensures Create(s, created, fallback).outcome.Threw?
    ensures Update(s, key, id, created, fallback).store.cache == s.cache
    ensures Update(s, key, id, created, fallback).outcome.Threw?
    ensures Delete(s, key, id, removed, fallback).store.cache == s.cache
    ensures Delete(s, key, id, removed, fallback).outcome.Threw?
  {
  }
}
